=== FILE: README.md ===
# relstorage OID collections, PostgreSQL driver helpers and database iterators, in Dafny

This project models four pieces of relstorage, the relational storage back end for ZODB:

- **OID/TID collections** (`_compat.py`). At import, relstorage picks the container
  family for object ids and transaction ids:
  - the 64-bit BTrees family when the accelerated `LLBTree` is available, and
    `dict`/`set` otherwise;
  - a packed unsigned 64-bit `array.array` for `OidList`/`TidList` where one
    exists (except on PyPy), and `list` otherwise.

  Six free functions are bound with whichever family was picked:
  - difference
  - multi-union
  - intersection
  - set difference
  - discard
  - max-key-or-zero

  The model states each function's result on the abstract mapping or set. That
  result is the same whichever backing was chosen.
- **The pg8000 driver**:
  - parses a `key=value key=value` DSN into connection keywords;
  - builds the `TRANSACTION ...` statement used by `connect_with_isolation`;
  - defines the commit and rollback predicates.
- **The psycopg2 driver**:
  - the transaction-status sets and the commit and rollback predicates;
  - when `connect_with_isolation` configures the session or sets the
    application name;
  - how server-side cursors are sized.
- **The database iterators** (`dbiter.py`):
  - how query rows become transaction records in history-preserving and
    history-free storage;
  - the defaults of the range bounds;
  - the error rules of `iter_object_history`;
  - the lazily materialised history-free transaction range.

Layout:

| file | contents |
|---|---|
| `wrappers.dfy` | `Option`, `Result`, the Python exceptions raised (`Wrappers`); `Byte` (`Bytes`) |
| `python.dfy` | Python truthiness of optional ints and strings (`Python`); the DB-API `Statement` both drivers execute (`DbApi`) |
| `oids.dfy` | `Oid` (0..`MAX_TID`), ascending key sequences, and the mapping a sorted item sequence denotes |
| `tree_backing.dfy` | the BTrees family: merges over ascending key sequences |
| `hash_backing.dfy` | the `dict`/`set` family |
| `packed_array.dfy` | fixed-width little-endian packing of an unsigned array |
| `compat.dfy` | the platform probe, the bindings, the dispatched algebra and its laws, `OidList` |
| `pg8000.dfy` | `str.split`, `str.strip`, DSN parsing, the transaction statement, the predicates |
| `psycopg2.dfy` | transaction status, the predicates, `connect_with_isolation`, `cursor` |
| `pg_drivers.dfy` | facts common to both drivers' predicates |
| `dbiter.dfy` | records, the transaction iterator, both iterators' range and history operations |

Modelling choices:

- **External calls become parameters.** The capability probes are the fields of
  `Compat.Platform`. The driver's column conversion `as_bytes` is a function
  parameter. Query results are inputs, and each operation reports the queries
  it ran as `Query` values.
- **BTrees is an external C library.** Its `difference`, `multiunion`,
  `intersection`, `TreeSet.remove` and `maxKey` are modelled from their
  documented behaviour, as merges over ascending sequences:
  - `difference` keeps the first argument's values;
  - `intersection` and `multiunion` return a set of keys.
- **Python truthiness is explicit.** `None`, `0` and `""` are false.
- **`None` is rendered as text.** In pg8000, `'%s' % None` renders a missing
  isolation level as the text `None`, and `TransactionStmt` models that.
- **Bounded integers.** Integers are unbounded in Dafny. Oids and tids are
  restricted to `0..MAX_TID`, where `MAX_TID = 2^63 - 1` is BTrees'
  `family64.maxint`. A packed array refuses a value its element width cannot
  hold, with `OverflowError`.
- **Signed 64-bit keys.** The code keys its maps and sets with BTrees' signed
  `family64.II`/`IO` types and sets `MAX_TID` to `family64.maxint`. Oids and
  tids are therefore bounded by 2^63 - 1, not by the unsigned 2^64 - 1 that
  the 64-bit array element could hold. The model follows the code.

## Model

| member | source | states |
|---|---|---|
| Compat.Select | src/relstorage/_compat.py:102-123 | the map, object-map and set types and the algebra switch together: BTrees family iff the LLBTree is not the Python fallback, dict/set otherwise; `TidList` is `OidList`, a packed array iff a 64-bit code exists and not PyPy, and then exactly the probed array type |
| Compat.Probe64BitArray | src/relstorage/_compat.py:209-221 | a 64-bit array type exists iff 'Q' is accepted or 'L' has item size at least 8; its code is 'Q' iff 'Q' is accepted; the item size is 8 for 'Q' and the probed size of 'L' otherwise, at least 8 in both cases |
| Compat.OidTMapDifference | src/relstorage/_compat.py:106-127 | on either backing the result's keys are c1's keys not in c2, each with c1's value; the result stays in the backing |
| Compat.OidTMapMultiunion | src/relstorage/_compat.py:107-130 | each input is a set or a map, a map contributing its keys; an oid is in the result iff some input holds it (so zero inputs give the empty set) |
| Compat.OidTMapIntersection | src/relstorage/_compat.py:108-133 | the result set holds exactly the keys present in both arguments |
| Compat.OidSetDifference | src/relstorage/_compat.py:109-136 | the members are those of s1 not in s2 |
| Compat.OidSetDiscard | src/relstorage/_compat.py:110-138 | the members are those of s without v; no error when v is absent |
| Compat.OidObjectMapMaxKey | src/relstorage/_compat.py:116-143 | 0 for an empty map, otherwise a key of the map no smaller than any key |
| Compat.IterOidItems | src/relstorage/_compat.py:229-232 | the pairs yielded are exactly the map's entries, each key once, in ascending key order for a BTree |
| Compat.IntersectionSymmetric | src/relstorage/_compat.py:132-133 | intersection(c1, c2) equals intersection(c2, c1), and is empty when c2 is empty |
| Compat.SetDifferenceLaws | src/relstorage/_compat.py:135-136 | difference(A, A) is the empty set and difference(A, {}) is A, as values of the backing |
| Compat.MapDifferenceLaws | src/relstorage/_compat.py:124-127 | difference(c, c) is the empty map and difference(c, {}) is c |
| Compat.DiscardIdempotent | src/relstorage/_compat.py:110-114 | discarding twice equals discarding once; discarding an absent value leaves the set as it was |
| Compat.MultiunionUnit | src/relstorage/_compat.py:129-130 | the multi-union of no inputs is empty and that of one set is that set |
| Compat.MultiunionReorder | src/relstorage/_compat.py:129-130 | the multi-union does not depend on the order of its inputs |
| Compat.ScenarioDifference | src/relstorage/_compat.py:135-136 | {1, 2, 3} minus {2, 3, 4} is {1} on either backing |
| Compat.ScenarioIntersection | src/relstorage/_compat.py:132-133 | maps keyed {1, 2, 3} and {2, 3, 4} share the keys {2, 3} |
| Compat.ScenarioMultiunion | src/relstorage/_compat.py:129-130 | the union of the set {1, 2, 3} and a map keyed {2, 3, 4} is {1, 2, 3, 4} on either backing |
| Compat.ScenarioMaxKey | src/relstorage/_compat.py:116-143 | a map keyed 5, 1 and 9 has maximum key 9 on either backing (the maximum-or-zero is unique) |
| Compat.ScenarioIterationOrder | src/relstorage/_compat.py:229-232 | iterating a BTree keyed 5, 1 and 9 yields the keys in the order 1, 5, 9 |
| Compat.MakeList | src/relstorage/_compat.py:222-226 | building an `OidList` raises OverflowError iff it is an array whose elements cannot hold some value; otherwise it is a packed array exactly when the list type is an array type, with that type's code and item size, and it holds exactly the values, in order |
| Compat.OidListRoundTrip | src/relstorage/_compat.py:222-227 | on every platform, an `OidList` built from oids up to MAX_TID succeeds and reads back the same sequence |
| Compat.GetItem | src/relstorage/adapters/dbiter.py:226-227 | `l[ix]` is the value at ix, or at len+ix for a negative ix, and IndexError outside -len..len-1 |
| TreeBacking.MultiUnion | src/relstorage/_compat.py:107 | the merged sequence is ascending and holds exactly the members of the inputs |
| TreeBacking.Intersection | src/relstorage/_compat.py:108 | ascending, and x is in it iff x is in both inputs |
| TreeBacking.Difference | src/relstorage/_compat.py:109 | ascending, and x is in it iff x is in the first input and not the second |
| TreeBacking.DifferenceItems | src/relstorage/_compat.py:106 | ascending by key, and a pair is in it iff it is in the first map and its key is not in the second |
| TreeBacking.DifferenceItemsMap | src/relstorage/_compat.py:106 | the mapping denoted by the result is the first mapping minus the second's keys |
| TreeBacking.Remove | src/relstorage/_compat.py:110-114 | `TreeSet.remove(v)` raises KeyError(v) iff v is absent; otherwise the result is ascending and holds all members but v |
| TreeBacking.Discard | src/relstorage/_compat.py:110-114 | the KeyError is swallowed: the result holds all members but v, and is the input when v is absent |
| TreeBacking.MaxKey | src/relstorage/_compat.py:116-119 | 0 for an empty tree, else its greatest key |
| HashBacking.Difference | src/relstorage/_compat.py:124-127 | the dict comprehension keeps the keys of c1 not in c2, with c1's values |
| HashBacking.MultiUnion | src/relstorage/_compat.py:129-130 | x is in `set().union(*seq)` iff some input holds it (a dict input being taken as its key set) |
| HashBacking.Intersection | src/relstorage/_compat.py:132-133 | the keys present in both |
| HashBacking.SetDifference | src/relstorage/_compat.py:135-136 | the members of c1 not in c2 |
| HashBacking.Discard | src/relstorage/_compat.py:138 | the members without v, whether or not v was present |
| HashBacking.MaxKey | src/relstorage/_compat.py:140-143 | 0 for an empty dict, else a key at least every key |
| PackedArray.UnpackPack | src/relstorage/_compat.py:212-223 | reading back a packed array of values that fit its element width gives the values |
| PackedArray.DecodeEncodeWord | src/relstorage/_compat.py:212-220 | one element's bytes decode to the value stored |
| Pg8000.Connect | src/relstorage/adapters/postgresql/drivers/pg8000.py:136-152 | AssertionError unless there is exactly one positional argument and no keywords; otherwise the DSN's keyword arguments |
| Pg8000.ParseDsnSucceeds | src/relstorage/adapters/postgresql/drivers/pg8000.py:144-146 | a DSN parses iff every space-separated part has exactly one '='; otherwise the error is ValueError |
| Pg8000.ParseDsn | src/relstorage/adapters/postgresql/drivers/pg8000.py:142-150 | the only error parsing a DSN can raise is ValueError |
| Pg8000.ParseDsnPairs | src/relstorage/adapters/postgresql/drivers/pg8000.py:142-150 | when every part splits, the DSN parses to the assignment of the pairs in order, and each part is its key, '=' and its value |
| Pg8000.ParseDsnKeywords | src/relstorage/adapters/postgresql/drivers/pg8000.py:142-150 | in the keyword arguments the loop builds from an empty dict (which `ParseDsnPairs` shows the parse returns), a keyword is present iff some part's key becomes it |
| Pg8000.ParseDsnLastWins | src/relstorage/adapters/postgresql/drivers/pg8000.py:142-150 | in those keyword arguments, each keyword holds the quote-stripped value of the last part whose key becomes it |
| Pg8000.ParseDsnRenamesDbname | src/relstorage/adapters/postgresql/drivers/pg8000.py:148-150 | a parsed DSN never holds the keyword `dbname` |
| Pg8000.KeywordRenames | src/relstorage/adapters/postgresql/drivers/pg8000.py:148-149 | the key `dbname` becomes `database`, every other key is itself, and no key becomes `dbname` |
| Pg8000.Assign | src/relstorage/adapters/postgresql/drivers/pg8000.py:145-150 | the assignment loop only adds keywords; it never removes one already present |
| Pg8000.AssignDomain | src/relstorage/adapters/postgresql/drivers/pg8000.py:145-150 | after the assignment loop a keyword is present iff it was before or some part's key becomes it (`dbname` becoming `database`) |
| Pg8000.AssignLastWins | src/relstorage/adapters/postgresql/drivers/pg8000.py:148-150 | when a key repeats, the keyword holds the quote-stripped value of its last part |
| Pg8000.AssignUntouched | src/relstorage/adapters/postgresql/drivers/pg8000.py:145-150 | a keyword no part names keeps its value |
| Pg8000.SplitAssignment | src/relstorage/adapters/postgresql/drivers/pg8000.py:146 | `key, value = part.split('=')` succeeds iff the part has exactly one '='; then part is key + "=" + value |
| Pg8000.SplitAssignmentOf | src/relstorage/adapters/postgresql/drivers/pg8000.py:146 | a part written as key=value (no other '=') splits into exactly that key and value |
| Pg8000.SplitAssignments | src/relstorage/adapters/postgresql/drivers/pg8000.py:145-146 | the parts all split iff each holds exactly one '='; otherwise the error is ValueError; on success there is one pair per part, each the split of that part |
| Pg8000.Split | src/relstorage/adapters/postgresql/drivers/pg8000.py:144 | `str.split(sep)`: at least one piece, none containing the separator |
| Pg8000.JoinSplit | src/relstorage/adapters/postgresql/drivers/pg8000.py:144 | joining the pieces with the separator gives back the string |
| Pg8000.SplitJoin | src/relstorage/adapters/postgresql/drivers/pg8000.py:144 | splitting a join of separator-free pieces gives back the pieces |
| Pg8000.SplitCount | src/relstorage/adapters/postgresql/drivers/pg8000.py:144-146 | a split gives one more piece than there are separators |
| Pg8000.Strip | src/relstorage/adapters/postgresql/drivers/pg8000.py:147 | the result is the middle of the value, every character cut from either end is a quote, and the result neither starts nor ends with one |
| Pg8000.StripIdempotent | src/relstorage/adapters/postgresql/drivers/pg8000.py:147 | stripping twice equals stripping once |
| Pg8000.TransactionStmt | src/relstorage/adapters/postgresql/drivers/pg8000.py:168-172 | the statement is "TRANSACTION ", the isolation text, a space, ", READ ONLY" iff read-only, a space, and ", DEFERRABLE" iff deferrable, at those exact positions; its length follows |
| Pg8000.TransactionStmtInjective | src/relstorage/adapters/postgresql/drivers/pg8000.py:168-172 | the two flags can be recovered from the statement |
| Pg8000.ConnectWithIsolation | src/relstorage/adapters/postgresql/drivers/pg8000.py:160-182 | fails iff the DSN does, and then with ValueError; otherwise runs exactly "SET " and "SET SESSION CHARACTERISTICS AS " with the same statement, then `SELECT set_config('application_name', %s, False)` with the name as its parameter iff a name is given and nothing else; leaves `readonly` equal to the read-only flag |
| Pg8000.MayNeedRollback | src/relstorage/adapters/postgresql/drivers/pg8000.py:195-197 | a pg8000 connection may always need a rollback |
| Pg8000.MayNeedCommit | src/relstorage/adapters/postgresql/drivers/pg8000.py:199-202 | never for a read-only connection; otherwise iff the connection is in a transaction |
| Pg8000.ReadOnlyNeverCommits | src/relstorage/adapters/postgresql/drivers/pg8000.py:199-202 | a connection opened read-only never needs a commit, whatever its later transaction state |
| Psycopg2.MayNeedRollback | src/relstorage/adapters/postgresql/drivers/psycopg2.py:127-133 | no rollback is needed exactly when the status is IDLE and the connection is writable |
| Psycopg2.MayNeedCommit | src/relstorage/adapters/postgresql/drivers/psycopg2.py:135-138 | never for a read-only connection; otherwise iff the status is ACTIVE or INTRANS |
| Psycopg2.DecisionTable | src/relstorage/adapters/postgresql/drivers/psycopg2.py:127-138 | read-only: rollback, never commit; writable: commit iff ACTIVE or INTRANS, rollback iff not IDLE; IDLE needs neither, INERROR needs only rollback |
| Psycopg2.ConnectWithIsolation | src/relstorage/adapters/postgresql/drivers/psycopg2.py:89-107 | AssertionError iff autocommit, and success otherwise; `set_session` is called, with the given arguments, iff isolation, deferrable or read-only is truthy; the application name is set and committed iff given; the connection is otherwise unchanged (autocommit and status untouched, `readonly` set only with the session) |
| Psycopg2.MakeCursor | src/relstorage/adapters/postgresql/drivers/psycopg2.py:109-116 | a server-side cursor iff requested, named after the connection, with arraysize and itersize both the driver's cursor_arraysize |
| PgDrivers.ReadOnlyNeverCommits | src/relstorage/adapters/postgresql/drivers/psycopg2.py:135-137 | neither driver asks a read-only connection to commit |
| PgDrivers.CommitImpliesRollback | src/relstorage/adapters/postgresql/drivers/psycopg2.py:127-138 | in both drivers a connection that may need a commit may need a rollback, and a read-only one may always need a rollback |
| PgDrivers.Pg8000RollsBackAtLeastAsOften | src/relstorage/adapters/postgresql/drivers/pg8000.py:195-197 | whenever psycopg2 would roll back, pg8000 would too |
| PgDrivers.OpenedReadOnlyNeverCommits | src/relstorage/adapters/postgresql/drivers/pg8000.py:180-181 | a connection either driver opened read-only never needs a commit afterwards |
| DbIter.RangeBounds | src/relstorage/adapters/dbiter.py:153-156 | a falsy start becomes min_tid 0, a falsy stop becomes max_tid MAX_TID; truthy bounds pass through |
| DbIter.RangeBoundsAgree | src/relstorage/adapters/dbiter.py:255-258 | both iterators bind the same min_tid and max_tid |
| DbIter.TransactionIterator | src/relstorage/adapters/dbiter.py:84-114 | one record per row in row order: tid and packed copied, the text columns converted by as_bytes, and pickle_size equal to packed |
| DbIter.TransactionIteratorAppend | src/relstorage/adapters/dbiter.py:104-114 | the records of concatenated rows are the concatenated records |
| DbIter.IterTransactions | src/relstorage/adapters/dbiter.py:126-133 | runs the transaction-log query only, and its records are exactly `_transaction_iterator` applied to the rows |
| DbIter.IterTransactionsRange | src/relstorage/adapters/dbiter.py:149-158 | runs the range query with the defaulted bounds, and its records are exactly `_transaction_iterator` applied to that query's rows |
| DbIter.IterObjectHistory | src/relstorage/adapters/dbiter.py:179-190 | KeyError(oid) iff the existence query finds nothing, and then the history query is not run; otherwise the records are exactly `_transaction_iterator` applied to the history rows, each carrying its row's tid and state size |
| DbIter.HistoryFreeRecordFields | src/relstorage/adapters/dbiter.py:192-209 | every history-free record has empty username, description and extension and packed true |
| DbIter.RangeLength | src/relstorage/adapters/dbiter.py:223-224 | the length of the range is the number of tids |
| DbIter.RangeGetItem | src/relstorage/adapters/dbiter.py:226-227 | `range[ix]` is a record of the tid the list holds at ix, or IndexError exactly when ix is out of range |
| DbIter.HistoryFreeIterTransactions | src/relstorage/adapters/dbiter.py:234-239 | empty, and no query is run |
| DbIter.HistoryFreeIterTransactionsRange | src/relstorage/adapters/dbiter.py:251-260 | runs the range query with the defaulted bounds and keeps its tids, in order, in a `TidList`; fails exactly when that list cannot hold a tid, with OverflowError |
| DbIter.HistoryFreeRangeIndexes | src/relstorage/adapters/dbiter.py:212-227 | on every platform the range has one record per tid and `range[ix].tid_int` is the tid at ix, counting from the end for negative ix |
| DbIter.HistoryFreeIterObjectHistory | src/relstorage/adapters/dbiter.py:268-280 | KeyError(oid) iff no row; AssertionError iff several; otherwise exactly one record with the row's tid and size |

## Left out

- Concurrency. `_compat.py` relies on atomic primitive operations of the chosen maps. The model treats every operation as a pure function of a snapshot.
- The copy `dict(c1)` taken by the dict difference. The copy is only a guard against concurrent mutation, so it has no counterpart here.
- The BTrees result types. BTrees' `difference` returns an `IIBucket` for a BTree first argument and an `IISet` for a TreeSet one, and `intersection` and `multiunion` return an `IISet`. The model folds these into its ordered-map and ordered-set shapes, because only their contents are observable here.
- Compat.OidSetDiscard: `OidSet_discard` mutates the set in place and returns None. The model returns the new set instead; its members are those of the old set without the value.
- The capability probing itself. The `array.array` trials, the BTrees identity check and PyPy detection are the fields of `Compat.Platform`.
- The performance measurements in the comments of `_compat.py`.
- Oids outside 0..MAX_TID, and None passed to the BTrees functions. The model's `Oid` type excludes these.
- The byte layout of a packed array. It is modelled as little-endian fixed-width words; only the round trip matters.
- The other shims in `_compat.py`: pickling re-exports, dict helpers, wrappers, base64 and the test-runner flag. These are foreign-library wrappers.
- SQL text and its execution. A query is a `DbIter.Query` value, its rows are inputs, and the `as_bytes` conversion is an uninterpreted parameter.
- `iter_objects` and `as_state` in `dbiter.py`. They are driver conversions outside the record shaping.
- pg8000: how the `RSConnection` class is made, the keyword arguments it rejects, and the network connection itself.
- pg8000 `set_lock_timeout`. It only executes a statement.
- Pg8000.ConnectWithIsolation: the effect of `conn.commit()` is modelled only as leaving `in_transaction` false. The driver's own state after a commit is not visible in this code.
- Psycopg2.ConnectWithIsolation: the transaction status is carried through unchanged. The server-side effect of the application-name statement and its commit on that status is not modelled.
- psycopg2: the gevent wait callback, the connection class creation and `debug_connection`. These are I/O polling and diagnostics.
- psycopg2 `sync_status_after_commit`. It only commits.
- Psycopg2.MakeCursor: the cursor name `str(id(conn))` is modelled as the connection's identity number, not as its decimal text.
- `cache/tests/test_mvcc.py`. It tests the MVCC coordinator, whose source is not part of this model.

=== FILE: compat.dfy ===
/**
 The import-time choice of OID/TID containers in relstorage's compatibility
 module, and the algebra bound with them. The capability probes become fields
 of `Platform`; the bound family is `Backing`. Every operation takes the backing
 its arguments were built with and states its result on the abstract mapping or
 set, which is the same whichever backing was chosen.
 */
module Compat {
  import opened Wrappers
  import opened Bytes
  import opened Oids
  import TreeBacking
  import HashBacking
  import PackedArray

  /** What the import-time probes observed. */
  datatype Platform = Platform(
    llbtreeIsPython: bool,  // BTrees.LLBTree.LLBTree is the pure-Python LLBTreePy
    acceptsQ: bool,         // array.array('Q', [1]) did not raise ValueError
    longItemSize: nat,      // array.array('L', [1]).itemsize
    isPyPy: bool)           // the interpreter is PyPy

  /** The family of containers and algebra functions bound at import. */
  datatype Backing = BTrees | Builtins

  datatype MapType = FamilyIIBTree | FamilyIOBTree | BuiltinDict
  datatype SetType = FamilyIITreeSet | BuiltinSet
  datatype TypeCode = Q | L
  datatype ListType = Array(code: TypeCode, itemSize: nat) | PyList

  /** The module-level names the selection binds. */
  datatype Bindings = Bindings(
    backing: Backing,        // the six algebra functions
    oidTidMap: MapType,      // OID_TID_MAP_TYPE
    oidObjectMap: MapType,   // OID_OBJECT_MAP_TYPE
    oidSet: SetType,         // OID_SET_TYPE
    oidList: ListType,       // OidList
    tidList: ListType)       // TidList

  function SelectBacking(p: Platform): Backing {
    if p.llbtreeIsPython then Builtins else BTrees
  }

  /** `_64bit_array`: an unsigned array type code of at least 8 bytes, if there is one. */
  function Probe64BitArray(p: Platform): (r: Option<ListType>)
    ensures r.Some? <==> p.acceptsQ || p.longItemSize >= 8
    ensures r.Some? ==> r.value.Array? && r.value.itemSize >= 8
    ensures r.Some? ==> (r.value.code == Q <==> p.acceptsQ)
    ensures r.Some? ==> r.value.itemSize == if p.acceptsQ then 8 else p.longItemSize
  {
    if p.acceptsQ then Some(Array(Q, 8))
    else if p.longItemSize >= 8 then Some(Array(L, p.longItemSize))
    else None
  }

  function Select(p: Platform): (r: Bindings)
    ensures r.backing == BTrees <==> !p.llbtreeIsPython
    ensures r.backing == BTrees ==>
      r.oidTidMap == FamilyIIBTree && r.oidObjectMap == FamilyIOBTree && r.oidSet == FamilyIITreeSet
    ensures r.backing == Builtins ==>
      r.oidTidMap == BuiltinDict && r.oidObjectMap == BuiltinDict && r.oidSet == BuiltinSet
    ensures r.oidList.Array? <==> (p.acceptsQ || p.longItemSize >= 8) && !p.isPyPy
    ensures r.oidList.Array? ==> r.oidList.itemSize >= 8 && Probe64BitArray(p) == Some(r.oidList)
    ensures r.tidList == r.oidList
  {
    var backing := SelectBacking(p);
    var arr := Probe64BitArray(p);
    var oidList := if arr.Some? && !p.isPyPy then arr.value else PyList;
    match backing
    case BTrees =>
      Bindings(backing, FamilyIIBTree, FamilyIOBTree, FamilyIITreeSet, oidList, oidList)
    case Builtins =>
      Bindings(backing, BuiltinDict, BuiltinDict, BuiltinSet, oidList, oidList)
  }

  // ---------------------------------------------------------------------------
  // Containers of either family

  /** An OID_TID_MAP_TYPE or OID_OBJECT_MAP_TYPE instance. */
  datatype OidMap<V> = BTreeMap(items: seq<(Oid, V)>) | DictMap(entries: map<Oid, V>)

  /** An OID_SET_TYPE instance. */
  datatype OidSet = TreeSet(keys: seq<Oid>) | HashSet(elems: set<Oid>)

  /** `c` is a well-formed instance of the map type bound for `b`. */
  predicate MapIn<V(!new)>(b: Backing, c: OidMap<V>) {
    match c
    case BTreeMap(items) => b == BTrees && AscendingItems(items)
    case DictMap(_) => b == Builtins
  }

  predicate SetIn(b: Backing, s: OidSet) {
    match s
    case TreeSet(keys) => b == BTrees && Ascending(keys)
    case HashSet(_) => b == Builtins
  }

  /** The mapping a map instance holds, whatever its backing. */
  function Contents<V(!new)>(c: OidMap<V>): map<Oid, V> {
    match c
    case BTreeMap(items) => ToMap(items)
    case DictMap(entries) => entries
  }

  /** The OIDs a set instance holds, whatever its backing. */
  function Members(s: OidSet): set<Oid> {
    match s
    case TreeSet(keys) => Elements(keys)
    case HashSet(elems) => elems
  }

  /** `OID_SET_TYPE()`. */
  function EmptySet(b: Backing): (s: OidSet)
    ensures SetIn(b, s) && Members(s) == {}
  {
    match b
    case BTrees => TreeSet([])
    case Builtins => HashSet({})
  }

  /** `OID_TID_MAP_TYPE()`. */
  function EmptyMap<V(!new)>(b: Backing): (c: OidMap<V>)
    ensures MapIn(b, c) && Contents(c) == map[]
  {
    match b
    case BTrees => BTreeMap([])
    case Builtins => DictMap(map[])
  }

  lemma MapKeys<V(!new)>(b: Backing, c: OidMap<V>)
    requires MapIn(b, c)
    ensures b == BTrees ==>
      Contents(c).Keys == KeySet(c.items) && Ascending(KeySeq(c.items)) && Elements(KeySeq(c.items)) == KeySet(c.items)
  {
    if b == BTrees {
      ToMapContents(c.items);
      KeySeqAscending(c.items);
    }
  }

  // ---------------------------------------------------------------------------
  // The algebra

  /** `OidTMap_difference(c1, c2)`: the entries of `c1` whose keys are not in `c2`,
      with `c1`'s values. */
  function OidTMapDifference<V(!new), W(!new)>(b: Backing, c1: OidMap<V>, c2: OidMap<W>): (r: OidMap<V>)
    requires MapIn(b, c1) && MapIn(b, c2)
    ensures MapIn(b, r)
    ensures Contents(r).Keys == Contents(c1).Keys - Contents(c2).Keys
    ensures forall k :: k in Contents(r) ==> Contents(r)[k] == Contents(c1)[k]
  {
    match b
    case BTrees =>
      MapKeys(b, c2);
      TreeBacking.DifferenceItemsMap(c1.items, KeySeq(c2.items));
      BTreeMap(TreeBacking.DifferenceItems(c1.items, KeySeq(c2.items)))
    case Builtins =>
      DictMap(HashBacking.Difference(c1.entries, c2.entries))
  }

  /** One argument of `OidTMap_multiunion`: a set, or a map standing for its keys
      (both BTrees' `multiunion` and `set().union` take the keys of a mapping). */
  datatype KeysArg<V> = SetArg(s: OidSet) | MapArg(m: OidMap<V>)

  predicate ArgIn<V(!new)>(b: Backing, a: KeysArg<V>) {
    match a
    case SetArg(s) => SetIn(b, s)
    case MapArg(m) => MapIn(b, m)
  }

  /** The OIDs an argument contributes: a set's members, a map's keys. */
  function ArgKeys<V(!new)>(a: KeysArg<V>): set<Oid> {
    match a
    case SetArg(s) => Members(s)
    case MapArg(m) => Contents(m).Keys
  }

  /** `OidTMap_multiunion(seq)`: every OID of every input set or map. */
  function OidTMapMultiunion<V(!new)>(b: Backing, ss: seq<KeysArg<V>>): (r: OidSet)
    requires forall i :: 0 <= i < |ss| ==> ArgIn(b, ss[i])
    ensures SetIn(b, r)
    ensures forall x :: x in Members(r) <==> exists i :: 0 <= i < |ss| && x in ArgKeys(ss[i])
  {
    match b
    case BTrees =>
      var keys := TreeKeys(ss);
      TreeSet(TreeBacking.MultiUnion(keys))
    case Builtins =>
      var elems := HashElems(ss);
      HashSet(HashBacking.MultiUnion(elems))
  }

  /** The ascending keys of a BTrees argument: a TreeSet's own, or a BTree's keys. */
  function ArgKeySeq<V(!new)>(a: KeysArg<V>): (r: seq<Oid>)
    requires ArgIn(BTrees, a)
    ensures Ascending(r) && Elements(r) == ArgKeys(a)
  {
    match a
    case SetArg(s) => s.keys
    case MapArg(m) =>
      MapKeys(BTrees, m);
      KeySeq(m.items)
  }

  /** The ascending key sequence of each argument, on the BTrees backing. */
  function TreeKeys<V(!new)>(ss: seq<KeysArg<V>>): (r: seq<seq<Oid>>)
    requires forall i :: 0 <= i < |ss| ==> ArgIn(BTrees, ss[i])
    ensures |r| == |ss|
    ensures forall i :: 0 <= i < |ss| ==> Ascending(r[i]) && Elements(r[i]) == ArgKeys(ss[i])
  {
    if ss == [] then []
    else
      assert ArgIn(BTrees, ss[0]);
      var rest := TreeKeys(ss[1..]);
      var r := [ArgKeySeq(ss[0])] + rest;
      assert forall i :: 1 <= i < |ss| ==> r[i] == rest[i - 1] && ss[i] == ss[1..][i - 1];
      r
  }

  /** The key set of each argument, on the builtin backing. */
  function HashElems<V(!new)>(ss: seq<KeysArg<V>>): (r: seq<set<Oid>>)
    requires forall i :: 0 <= i < |ss| ==> ArgIn(Builtins, ss[i])
    ensures |r| == |ss|
    ensures forall i :: 0 <= i < |ss| ==> r[i] == ArgKeys(ss[i])
  {
    if ss == [] then []
    else
      assert ArgIn(Builtins, ss[0]);
      [ArgKeys(ss[0])] + HashElems(ss[1..])
  }

  /** `OidTMap_intersection(c1, c2)`: the keys present in both, as a set. */
  function OidTMapIntersection<V(!new), W(!new)>(b: Backing, c1: OidMap<V>, c2: OidMap<W>): (r: OidSet)
    requires MapIn(b, c1) && MapIn(b, c2)
    ensures SetIn(b, r)
    ensures Members(r) == Contents(c1).Keys * Contents(c2).Keys
  {
    match b
    case BTrees =>
      MapKeys(b, c1);
      MapKeys(b, c2);
      TreeSet(TreeBacking.Intersection(KeySeq(c1.items), KeySeq(c2.items)))
    case Builtins =>
      HashSet(HashBacking.Intersection(c1.entries, c2.entries))
  }

  /** `OidSet_difference(c1, c2)`. */
  function OidSetDifference(b: Backing, s1: OidSet, s2: OidSet): (r: OidSet)
    requires SetIn(b, s1) && SetIn(b, s2)
    ensures SetIn(b, r)
    ensures Members(r) == Members(s1) - Members(s2)
  {
    match b
    case BTrees => TreeSet(TreeBacking.Difference(s1.keys, s2.keys))
    case Builtins => HashSet(HashBacking.SetDifference(s1.elems, s2.elems))
  }

  /** `OidSet_discard(s, v)`: `s` without `v`; never an error. */
  function OidSetDiscard(b: Backing, s: OidSet, v: Oid): (r: OidSet)
    requires SetIn(b, s)
    ensures SetIn(b, r)
    ensures Members(r) == Members(s) - {v}
  {
    match b
    case BTrees => TreeSet(TreeBacking.Discard(s.keys, v))
    case Builtins => HashSet(HashBacking.Discard(s.elems, v))
  }

  /** `OidObjectMap_max_key(m)`: 0 for an empty map, else its greatest key. */
  method OidObjectMapMaxKey<V(!new)>(b: Backing, m: OidMap<V>) returns (r: Oid)
    requires MapIn(b, m)
    ensures IsMaxOrZero(Contents(m).Keys, r)
  {
    match b
    case BTrees =>
      MapKeys(b, m);
      r := TreeBacking.MaxKey(m.items);
    case Builtins =>
      r := HashBacking.MaxKey(m.entries);
  }

  /** `iteroiditems(d)`: each item of the map once; in key order for a BTree. */
  method IterOidItems<V(!new)>(b: Backing, m: OidMap<V>) returns (items: seq<(Oid, V)>)
    requires MapIn(b, m)
    ensures forall p :: p in items <==> p.0 in Contents(m) && Contents(m)[p.0] == p.1
    ensures forall i, j :: 0 <= i < j < |items| ==> items[i].0 != items[j].0
    ensures b == BTrees ==> AscendingItems(items)
  {
    match b
    case BTrees =>
      ToMapContents(m.items);
      items := m.items;
    case Builtins =>
      var entries := m.entries;
      items := [];
      var unseen := entries.Keys;
      while unseen != {}
        invariant unseen <= entries.Keys
        invariant forall p :: p in items <==> p.0 in entries && p.0 !in unseen && entries[p.0] == p.1
        invariant forall i, j :: 0 <= i < j < |items| ==> items[i].0 != items[j].0
        decreases |unseen|
      {
        var k :| k in unseen;
        assert forall i :: 0 <= i < |items| ==> items[i].0 != k by {
          forall i | 0 <= i < |items| ensures items[i].0 != k {
            assert items[i] in items;
          }
        }
        items := items + [(k, entries[k])];
        unseen := unseen - {k};
      }
  }

  // ---------------------------------------------------------------------------
  // Laws of the algebra, as instance equalities: an ordered instance is determined
  // by its contents, so the laws hold of the containers, not only of their contents.

  /** Intersection is symmetric, and empty when either side is. */
  lemma IntersectionSymmetric<V(!new), W(!new)>(b: Backing, c1: OidMap<V>, c2: OidMap<W>)
    requires MapIn(b, c1) && MapIn(b, c2)
    ensures OidTMapIntersection(b, c1, c2) == OidTMapIntersection(b, c2, c1)
    ensures Contents(c2) == map[] ==> Members(OidTMapIntersection(b, c1, c2)) == {}
  {
    var r1 := OidTMapIntersection(b, c1, c2);
    var r2 := OidTMapIntersection(b, c2, c1);
    if b == BTrees {
      AscendingUnique(r1.keys, r2.keys);
    }
  }

  /** `difference(A, A)` is empty and `difference(A, {})` is `A`. */
  lemma SetDifferenceLaws(b: Backing, s: OidSet)
    requires SetIn(b, s)
    ensures OidSetDifference(b, s, s) == EmptySet(b)
    ensures OidSetDifference(b, s, EmptySet(b)) == s
  {
    if b == BTrees {
      AscendingUnique(OidSetDifference(b, s, s).keys, []);
      AscendingUnique(OidSetDifference(b, s, EmptySet(b)).keys, s.keys);
    }
  }

  /** The map form: `difference(M, M)` is empty and `difference(M, {})` is `M`. */
  lemma MapDifferenceLaws<V(!new)>(b: Backing, c: OidMap<V>)
    requires MapIn(b, c)
    ensures OidTMapDifference(b, c, c) == EmptyMap(b)
    ensures OidTMapDifference(b, c, EmptyMap<V>(b)) == c
  {
  }

  /** Discarding twice is discarding once; discarding an absent OID changes nothing. */
  lemma DiscardIdempotent(b: Backing, s: OidSet, v: Oid)
    requires SetIn(b, s)
    ensures OidSetDiscard(b, OidSetDiscard(b, s, v), v) == OidSetDiscard(b, s, v)
    ensures v !in Members(s) ==> OidSetDiscard(b, s, v) == s
  {
  }

  /** `multiunion([])` is empty and `multiunion([A])` is `A`. */
  lemma MultiunionUnit<V(!new)>(b: Backing, s: OidSet)
    requires SetIn(b, s)
    ensures OidTMapMultiunion<V>(b, []) == EmptySet(b)
    ensures OidTMapMultiunion<V>(b, [SetArg(s)]) == s
  {
  }

  /** With A = {1, 2, 3} and B = {2, 3, 4}, on either backing: A - B = {1}. */
  lemma ScenarioDifference(b: Backing, a: OidSet, c: OidSet)
    requires SetIn(b, a) && SetIn(b, c)
    requires Members(a) == {1, 2, 3} && Members(c) == {2, 3, 4}
    ensures Members(OidSetDifference(b, a, c)) == {1}
  {
  }

  /** The keys common to maps over {1, 2, 3} and {2, 3, 4} are {2, 3}. */
  lemma ScenarioIntersection<V(!new)>(b: Backing, ma: OidMap<V>, mc: OidMap<V>)
    requires MapIn(b, ma) && MapIn(b, mc)
    requires Contents(ma).Keys == {1, 2, 3} && Contents(mc).Keys == {2, 3, 4}
    ensures Members(OidTMapIntersection(b, ma, mc)) == {2, 3}
  {
  }

  /** The union of the set {1, 2, 3} and a map keyed {2, 3, 4} is {1, 2, 3, 4}. */
  lemma ScenarioMultiunion<V(!new)>(b: Backing, a: OidSet, mc: OidMap<V>)
    requires SetIn(b, a) && MapIn(b, mc)
    requires Members(a) == {1, 2, 3} && Contents(mc).Keys == {2, 3, 4}
    ensures Members(OidTMapMultiunion(b, [SetArg(a), MapArg(mc)])) == {1, 2, 3, 4}
  {
    var ss := [SetArg(a), MapArg(mc)];
    forall x ensures x in Members(OidTMapMultiunion(b, ss)) <==> x in Members(a) || x in Contents(mc).Keys {
      assert ss[0] == SetArg(a) && ss[1] == MapArg(mc);
    }
  }

  /** A map with keys 5, 1 and 9 has maximum key 9 on either backing. */
  method ScenarioMaxKey<V(!new)>(b: Backing, m: OidMap<V>) returns (r: Oid)
    requires MapIn(b, m) && Contents(m).Keys == {5, 1, 9}
    ensures r == 9
  {
    r := OidObjectMapMaxKey(b, m);
    MaxOrZeroUnique(Contents(m).Keys, r, 9);
  }

  /** Iterating a BTree keyed 5, 1 and 9 yields the keys 1, 5, 9 in that order. */
  method ScenarioIterationOrder<V(!new)>(m: OidMap<V>) returns (keys: seq<Oid>)
    requires MapIn(BTrees, m) && Contents(m).Keys == {5, 1, 9}
    ensures keys == [1, 5, 9]
  {
    var items := IterOidItems(BTrees, m);
    keys := KeySeq(items);
    KeySeqAscending(items);
    assert Elements(keys) == {1, 5, 9} by {
      forall k ensures k in Elements(keys) <==> k in Contents(m).Keys {
        if k in Contents(m).Keys {
          assert (k, Contents(m)[k]) in items;
          var i :| 0 <= i < |items| && items[i] == (k, Contents(m)[k]);
          assert keys[i] == k;
        }
        if k in Elements(keys) {
          var i :| 0 <= i < |keys| && keys[i] == k;
          assert items[i] in items;
        }
      }
    }
    AscendingUnique(keys, [1, 5, 9]);
  }

  /** `multiunion` does not depend on the order of its inputs. */
  lemma MultiunionReorder<V(!new)>(b: Backing, ss: seq<KeysArg<V>>, ts: seq<KeysArg<V>>)
    requires forall i :: 0 <= i < |ss| ==> ArgIn(b, ss[i])
    requires forall i :: 0 <= i < |ts| ==> ArgIn(b, ts[i])
    requires multiset(ss) == multiset(ts)
    ensures OidTMapMultiunion(b, ss) == OidTMapMultiunion(b, ts)
  {
    var u := OidTMapMultiunion(b, ss);
    var w := OidTMapMultiunion(b, ts);
    assert Members(u) == Members(w) by {
      forall x ensures x in Members(u) <==> x in Members(w) {
        if x in Members(u) {
          var i :| 0 <= i < |ss| && x in ArgKeys(ss[i]);
          assert ss[i] in multiset(ts);
          var j :| 0 <= j < |ts| && ts[j] == ss[i];
        }
        if x in Members(w) {
          var j :| 0 <= j < |ts| && x in ArgKeys(ts[j]);
          assert ts[j] in multiset(ss);
          var i :| 0 <= i < |ss| && ss[i] == ts[j];
        }
      }
    }
    if b == BTrees {
      AscendingUnique(u.keys, w.keys);
    }
  }

  // ---------------------------------------------------------------------------
  // OidList and TidList

  /** An OidList/TidList instance: a packed array buffer, or a list of ints. */
  datatype OidList = PackedList(code: TypeCode, itemSize: nat, buffer: Bytes) | BoxedList(values: seq<int>)

  predicate ListTypeValid(t: ListType) {
    t.Array? ==> t.itemSize > 0
  }

  predicate ListValid(l: OidList) {
    l.PackedList? ==> l.itemSize > 0
  }

  /** The values an OidList holds, in order. */
  function Values(l: OidList): seq<int>
    requires ListValid(l)
  {
    match l
    case PackedList(_, w, buffer) => PackedArray.Unpack(buffer, w)
    case BoxedList(values) => values
  }

  /** `OidList(xs)`: an array raises OverflowError on a value its elements cannot hold;
      otherwise the list holds exactly `xs`, in order. */
  function MakeList(t: ListType, xs: seq<int>): (r: Result<OidList, Exception>)
    requires ListTypeValid(t)
    ensures r.Failure? <==> t.Array? && !PackedArray.Fits(xs, t.itemSize)
    ensures r.Failure? ==> r.error == OverflowError
    ensures r.Success? ==> (r.value.PackedList? <==> t.Array?)
    ensures r.Success? && t.Array? ==> r.value.code == t.code && r.value.itemSize == t.itemSize
    ensures r.Success? ==> ListValid(r.value) && Values(r.value) == xs
  {
    match t
    case PyList => Success(BoxedList(xs))
    case Array(code, w) =>
      if !PackedArray.Fits(xs, w) then Failure(OverflowError)
      else
        PackedArray.UnpackPack(xs, w);
        Success(PackedList(code, w, PackedArray.Pack(xs, w)))
  }

  /** Every list type the selection can bind stores every sequence of OIDs and
      reads it back unchanged. */
  lemma OidListRoundTrip(p: Platform, xs: seq<Oid>)
    ensures ListTypeValid(Select(p).oidList)
    ensures MakeList(Select(p).oidList, xs).Success?
    ensures Values(MakeList(Select(p).oidList, xs).value) == xs
  {
    var t := Select(p).oidList;
    if t.Array? {
      PackedArray.Pow256Monotone(8, t.itemSize);
      PackedArray.Pow256Of8();
      assert PackedArray.Fits(xs, t.itemSize);
    }
  }

  /** Python indexing: `ix` counts from the end when negative; out of range is None. */
  function PyIndex(n: nat, ix: int): (r: Option<nat>)
    ensures r.Some? <==> 0 <= n + ix && ix < n
    ensures r.Some? ==> r.value < n && r.value % n == ix % n
  {
    if 0 <= ix < n then Some(ix)
    else if 0 <= n + ix && ix < 0 then Some(n + ix)
    else None
  }

  /** `l[ix]`: IndexError outside `-len(l) <= ix < len(l)`. */
  function GetItem(l: OidList, ix: int): (r: Result<int, Exception>)
    requires ListValid(l)
    ensures r.Failure? <==> ix < -|Values(l)| || |Values(l)| <= ix
    ensures r.Failure? ==> r.error == IndexError
    ensures 0 <= ix < |Values(l)| ==> r == Success(Values(l)[ix])
    ensures -|Values(l)| <= ix < 0 ==> r == Success(Values(l)[|Values(l)| + ix])
  {
    var vs := Values(l);
    match PyIndex(|vs|, ix)
    case Some(i) => Success(vs[i])
    case None => Failure(IndexError)
  }
}

=== FILE: dbiter.dfy ===
/**
 Shaping of database rows into transaction records by relstorage's database
 iterators. The SQL is not modelled: a query is named by a `Query` value, its
 rows are inputs, and each operation reports the queries it ran in order.
 The driver's conversion of a text column to bytes is the parameter `asBytes`.
 */
module DbIter {
  import opened Wrappers
  import opened Python
  import opened Bytes
  import opened Oids
  import Compat

  /** The bound parameters of a transaction-range query. */
  datatype RangeParams = RangeParams(minTid: int, maxTid: int)

  /** The queries the iterators run. */
  datatype Query =
    | TransactionsQuery
    | TransactionsRangeQuery(params: RangeParams)
    | ObjectExistsQuery(oid: int)
    | ObjectHistoryQuery(oid: int)
    | HistoryFreeRangeQuery(params: RangeParams)
    | HistoryFreeObjectHistoryQuery(oid: int)

  /** The queries an operation ran, in order, and what it returned or raised. */
  datatype Execution<T> = Execution(executed: seq<Query>, outcome: Result<T, Exception>)

  /** The `iter_transactions_range` parameters: a falsy bound is replaced by 0 or MAX_TID. */
  function RangeBounds(start: Option<int>, stop: Option<int>): (r: RangeParams)
    ensures IntTruthy(start) ==> r.minTid == start.value
    ensures !IntTruthy(start) ==> r.minTid == 0
    ensures IntTruthy(stop) ==> r.maxTid == stop.value
    ensures !IntTruthy(stop) ==> r.maxTid == MAX_TID
  {
    RangeParams(if IntTruthy(start) then start.value else 0,
                if IntTruthy(stop) then stop.value else MAX_TID)
  }

  // ---------------------------------------------------------------------------
  // History-preserving storage

  /** A row `(tid, username, description, extension, X)`, text columns of the
      driver's column type `C`; X is `packed`, a constant 0, or a state size. */
  datatype TransactionRow<C> = TransactionRow(tid: int, username: C, description: C, extension: C, packed: int)

  /** `_HistoryPreservingTransactionRecord`. */
  datatype TransactionRecord = TransactionRecord(tidInt: int, username: Bytes, description: Bytes,
                                                 extension: Bytes, packed: int)
  {
    /** The `pickle_size` property: the fifth column, which the object-history
        query fills with the state size. */
    function PickleSize(): (n: int)
      ensures n == packed
    {
      packed
    }
  }

  /** `_transaction_iterator`: one record per row, in row order. */
  function TransactionIterator<C>(rows: seq<TransactionRow<C>>, asBytes: C -> Bytes): (r: seq<TransactionRecord>)
    ensures |r| == |rows|
    ensures forall i :: 0 <= i < |rows| ==>
      && r[i].tidInt == rows[i].tid
      && r[i].username == asBytes(rows[i].username)
      && r[i].description == asBytes(rows[i].description)
      && r[i].extension == asBytes(rows[i].extension)
      && r[i].packed == rows[i].packed
      && r[i].PickleSize() == rows[i].packed
  {
    if rows == [] then []
    else
      var row := rows[0];
      var rest := TransactionIterator(rows[1..], asBytes);
      var r := [TransactionRecord(row.tid, asBytes(row.username), asBytes(row.description),
                                  asBytes(row.extension), row.packed)] + rest;
      assert forall i :: 1 <= i < |rows| ==> r[i] == rest[i - 1] && rows[i] == rows[1..][i - 1];
      r
  }

  /** Records follow the rows: shaping a concatenation shapes each part in turn. */
  lemma TransactionIteratorAppend<C>(a: seq<TransactionRow<C>>, b: seq<TransactionRow<C>>, asBytes: C -> Bytes)
    ensures TransactionIterator(a + b, asBytes) == TransactionIterator(a, asBytes) + TransactionIterator(b, asBytes)
  {
  }

  /** `HistoryPreservingDatabaseIterator.iter_transactions`: the rows of the
      transaction-log query, one record each, in the order the query gives. */
  function IterTransactions<C>(rows: seq<TransactionRow<C>>, asBytes: C -> Bytes): (r: Execution<seq<TransactionRecord>>)
    ensures r.executed == [TransactionsQuery]
    ensures r.outcome.Success? && |r.outcome.value| == |rows|
    ensures r.outcome == Success(TransactionIterator(rows, asBytes))
    ensures forall i :: 0 <= i < |rows| ==>
      r.outcome.value[i].tidInt == rows[i].tid && r.outcome.value[i].packed == rows[i].packed
  {
    Execution([TransactionsQuery], Success(TransactionIterator(rows, asBytes)))
  }

  /** `HistoryPreservingDatabaseIterator.iter_transactions_range`. */
  function IterTransactionsRange<C>(start: Option<int>, stop: Option<int>,
                                    rowsFor: RangeParams -> seq<TransactionRow<C>>,
                                    asBytes: C -> Bytes): (r: Execution<seq<TransactionRecord>>)
    ensures |r.executed| == 1 && r.executed[0].TransactionsRangeQuery?
    ensures r.executed[0].params == RangeBounds(start, stop)
    ensures r.outcome.Success?
    ensures |r.outcome.value| == |rowsFor(RangeBounds(start, stop))|
    ensures r.outcome == Success(TransactionIterator(rowsFor(RangeBounds(start, stop)), asBytes))
  {
    var params := RangeBounds(start, stop);
    Execution([TransactionsRangeQuery(params)], Success(TransactionIterator(rowsFor(params), asBytes)))
  }

  /** `HistoryPreservingDatabaseIterator.iter_object_history`: KeyError when the
      existence query finds nothing, and then the history query is never run. */
  function IterObjectHistory<C>(oid: int, existsRows: seq<int>, historyRows: seq<TransactionRow<C>>,
                                asBytes: C -> Bytes): (r: Execution<seq<TransactionRecord>>)
    ensures r.outcome.Failure? <==> existsRows == []
    ensures r.outcome.Failure? ==> r.outcome.error == KeyError(oid) && r.executed == [ObjectExistsQuery(oid)]
    ensures r.outcome.Success? ==> r.executed == [ObjectExistsQuery(oid), ObjectHistoryQuery(oid)]
    ensures r.outcome.Success? ==> |r.outcome.value| == |historyRows|
    ensures r.outcome.Success? ==> r.outcome.value == TransactionIterator(historyRows, asBytes)
    ensures r.outcome.Success? ==> forall i :: 0 <= i < |historyRows| ==>
      r.outcome.value[i].tidInt == historyRows[i].tid && r.outcome.value[i].PickleSize() == historyRows[i].packed
  {
    if existsRows == [] then
      Execution([ObjectExistsQuery(oid)], Failure(KeyError(oid)))
    else
      Execution([ObjectExistsQuery(oid), ObjectHistoryQuery(oid)],
                Success(TransactionIterator(historyRows, asBytes)))
  }

  // ---------------------------------------------------------------------------
  // History-free storage

  /** `_HistoryFreeTransactionRecord` and `_HistoryFreeObjectHistoryRecord`. */
  datatype HistoryFreeRecord =
    | HistoryFreeTransactionRecord(tidInt: int)
    | HistoryFreeObjectHistoryRecord(tidInt: int, pickleSize: int)
  {
    /** The class attributes shared by every history-free record. */
    function Username(): Bytes { [] }
    function Description(): Bytes { [] }
    function Extension(): Bytes { [] }
    function Packed(): bool { true }
  }

  /** A history-free record keeps only its tid (and, from the object history,
      the state size); the other fields are the same constants for every record. */
  lemma HistoryFreeRecordFields(rec: HistoryFreeRecord)
    ensures rec.Username() == [] && rec.Description() == [] && rec.Extension() == []
    ensures rec.Packed()
  {
  }

  /** `_HistoryFreeTransactionRange`: the tids only, records made on demand. */
  datatype TransactionRange = TransactionRange(tidInts: Compat.OidList)

  predicate RangeValid(range: TransactionRange) {
    Compat.ListValid(range.tidInts)
  }

  /** `len(range)`: the number of tids held. */
  function RangeLength(range: TransactionRange): (n: nat)
    requires RangeValid(range)
    ensures n == |Compat.Values(range.tidInts)|
  {
    |Compat.Values(range.tidInts)|
  }

  /** `range[ix]`: a record for the tid at `ix`, Python indexing included. */
  function RangeGetItem(range: TransactionRange, ix: int): (r: Result<HistoryFreeRecord, Exception>)
    requires RangeValid(range)
    ensures r.Failure? <==> ix + RangeLength(range) < 0 || RangeLength(range) <= ix
    ensures r.Failure? ==> r.error == IndexError
    ensures r.Success? ==> r.value == HistoryFreeTransactionRecord(Compat.GetItem(range.tidInts, ix).value)
  {
    match Compat.GetItem(range.tidInts, ix)
    case Success(tid) => Success(HistoryFreeTransactionRecord(tid))
    case Failure(e) => Failure(e)
  }

  /** `HistoryFreeDatabaseIterator.iter_transactions`: always empty, runs nothing. */
  function HistoryFreeIterTransactions(): (r: Execution<seq<HistoryFreeRecord>>)
    ensures r.executed == [] && r.outcome == Success([])
  {
    Execution([], Success([]))
  }

  /** `HistoryFreeDatabaseIterator.iter_transactions_range`: the tids go into a
      `TidList` of the bound list type (which may refuse a value it cannot hold). */
  function HistoryFreeIterTransactionsRange(tidList: Compat.ListType, start: Option<int>, stop: Option<int>,
                                            rowsFor: RangeParams -> seq<int>): (r: Execution<TransactionRange>)
    requires Compat.ListTypeValid(tidList)
    ensures |r.executed| == 1 && r.executed[0].HistoryFreeRangeQuery?
    ensures r.executed[0].params == RangeBounds(start, stop)
    ensures r.outcome.Failure? <==> Compat.MakeList(tidList, rowsFor(RangeBounds(start, stop))).Failure?
    ensures r.outcome.Failure? ==> r.outcome.error == OverflowError
    ensures r.outcome.Success? ==> RangeValid(r.outcome.value)
    ensures r.outcome.Success? ==> Compat.Values(r.outcome.value.tidInts) == rowsFor(RangeBounds(start, stop))
  {
    var params := RangeBounds(start, stop);
    var executed := [HistoryFreeRangeQuery(params)];
    match Compat.MakeList(tidList, rowsFor(params))
    case Failure(e) => Execution(executed, Failure(e))
    case Success(tids) => Execution(executed, Success(TransactionRange(tids)))
  }

  /** `HistoryFreeDatabaseIterator.iter_object_history`: KeyError without a row,
      an assertion failure with several, else one record from the only row. */
  function HistoryFreeIterObjectHistory(oid: int, rows: seq<(int, int)>): (r: Execution<seq<HistoryFreeRecord>>)
    ensures r.executed == [HistoryFreeObjectHistoryQuery(oid)]
    ensures rows == [] <==> r.outcome == Failure(KeyError(oid))
    ensures |rows| > 1 <==> r.outcome == Failure(AssertionError)
    ensures |rows| == 1 <==> r.outcome.Success?
    ensures r.outcome.Success? ==>
      r.outcome.value == [HistoryFreeObjectHistoryRecord(rows[0].0, rows[0].1)]
  {
    var executed := [HistoryFreeObjectHistoryQuery(oid)];
    if rows == [] then Execution(executed, Failure(KeyError(oid)))
    else if |rows| != 1 then Execution(executed, Failure(AssertionError))
    else
      var (tid, size) := rows[0];
      Execution(executed, Success([HistoryFreeObjectHistoryRecord(tid, size)]))
  }

  // ---------------------------------------------------------------------------
  // Properties across the two iterators

  /** Both iterators bound a range query the same way. */
  lemma RangeBoundsAgree<C>(start: Option<int>, stop: Option<int>,
                            rowsFor: RangeParams -> seq<TransactionRow<C>>, asBytes: C -> Bytes,
                            tidList: Compat.ListType, tidsFor: RangeParams -> seq<int>)
    requires Compat.ListTypeValid(tidList)
    ensures IterTransactionsRange(start, stop, rowsFor, asBytes).executed[0].params
      == HistoryFreeIterTransactionsRange(tidList, start, stop, tidsFor).executed[0].params
  {
  }

  /** On any platform, a history-free transaction range over tids in 0..MAX_TID has one
      record per tid, and `range[ix]` carries the tid at `ix` (counting from the
      end when `ix` is negative). */
  lemma HistoryFreeRangeIndexes(p: Compat.Platform, start: Option<int>, stop: Option<int>,
                                tidsFor: RangeParams -> seq<int>)
    requires forall i :: 0 <= i < |tidsFor(RangeBounds(start, stop))| ==>
      0 <= tidsFor(RangeBounds(start, stop))[i] <= MAX_TID
    ensures Compat.ListTypeValid(Compat.Select(p).tidList)
    ensures var r := HistoryFreeIterTransactionsRange(Compat.Select(p).tidList, start, stop, tidsFor);
      var tids := tidsFor(RangeBounds(start, stop));
      && r.outcome.Success?
      && RangeLength(r.outcome.value) == |tids|
      && (forall ix :: 0 <= ix < |tids| ==>
            RangeGetItem(r.outcome.value, ix) == Success(HistoryFreeTransactionRecord(tids[ix])))
      && (forall ix :: -|tids| <= ix < 0 ==>
            RangeGetItem(r.outcome.value, ix) == Success(HistoryFreeTransactionRecord(tids[|tids| + ix])))
      && (forall ix :: ix < -|tids| || |tids| <= ix ==> RangeGetItem(r.outcome.value, ix) == Failure(IndexError))
  {
    var t := Compat.Select(p).tidList;
    var tids: seq<Oid> := tidsFor(RangeBounds(start, stop));
    Compat.OidListRoundTrip(p, tids);
    assert t == Compat.Select(p).oidList;
    var r := HistoryFreeIterTransactionsRange(t, start, stop, tidsFor);
    var range := r.outcome.value;
    assert Compat.Values(range.tidInts) == tids;
    forall ix | 0 <= ix < |tids|
      ensures RangeGetItem(range, ix) == Success(HistoryFreeTransactionRecord(tids[ix]))
    {
      assert Compat.GetItem(range.tidInts, ix) == Success(tids[ix]);
    }
    forall ix | -|tids| <= ix < 0
      ensures RangeGetItem(range, ix) == Success(HistoryFreeTransactionRecord(tids[|tids| + ix]))
    {
      assert Compat.GetItem(range.tidInts, ix) == Success(tids[|tids| + ix]);
    }
  }
}

=== FILE: hash_backing.dfy ===
/**
 The hash backing chosen when only the pure-Python BTrees are available: plain
 `dict` and `set`, and the algebra written over them in the same branch.
 */
module HashBacking {
  import opened Oids

  /** `OidTMap_difference`: `c1` restricted to the keys not in `c2`. */
  function Difference<V, W>(c1: map<Oid, V>, c2: map<Oid, W>): (r: map<Oid, V>)
    ensures forall k :: k in r <==> k in c1 && k !in c2
    ensures forall k :: k in r ==> r[k] == c1[k]
  {
    map k | k in c1.Keys - c2.Keys :: c1[k]
  }

  /** `OidTMap_multiunion`: `set().union(*seq)`. */
  function MultiUnion(ss: seq<set<Oid>>): (r: set<Oid>)
    ensures forall x :: x in r <==> exists i :: 0 <= i < |ss| && x in ss[i]
  {
    if ss == [] then {}
    else
      var front := ss[..|ss| - 1];
      var acc := MultiUnion(front);
      assert forall x :: x in acc ==> exists i :: 0 <= i < |ss| && x in ss[i] by {
        forall x | x in acc ensures exists i :: 0 <= i < |ss| && x in ss[i] {
          var i :| 0 <= i < |front| && x in front[i];
          assert ss[i] == front[i];
        }
      }
      assert forall x, i :: 0 <= i < |ss| - 1 && x in ss[i] ==> x in acc by {
        forall x, i | 0 <= i < |ss| - 1 && x in ss[i] ensures x in acc {
          assert front[i] == ss[i];
        }
      }
      acc + ss[|ss| - 1]
  }

  /** `OidTMap_intersection`: `set(c1).intersection(set(c2))`. */
  function Intersection<V, W>(c1: map<Oid, V>, c2: map<Oid, W>): (r: set<Oid>)
    ensures forall k :: k in r <==> k in c1 && k in c2
  {
    c1.Keys * c2.Keys
  }

  /** `OidSet_difference`: `set(c1) - set(c2)`. */
  function SetDifference(c1: set<Oid>, c2: set<Oid>): (r: set<Oid>)
    ensures forall k :: k in r <==> k in c1 && k !in c2
  {
    c1 - c2
  }

  /** `OidSet_discard`, which is `set.discard`: never raises. */
  function Discard(s: set<Oid>, v: Oid): (r: set<Oid>)
    ensures forall x :: x in r <==> x in s && x != v
  {
    s - {v}
  }

  /** `OidObjectMap_max_key` on a dict: 0 when empty, else `max(iterkeys(mapping))`,
      a linear scan over the keys in whatever order the dict yields them. */
  method MaxKey<V>(mapping: map<Oid, V>) returns (r: Oid)
    ensures IsMaxOrZero(mapping.Keys, r)
  {
    if |mapping| == 0 {
      return 0;
    }
    var keys := mapping.Keys;
    var first :| first in keys;
    r := first;
    var unseen := keys - {first};
    while unseen != {}
      invariant unseen <= keys
      invariant r in keys
      invariant forall k :: k in keys && k !in unseen ==> k <= r
      decreases |unseen|
    {
      var k :| k in unseen;
      if k > r {
        r := k;
      }
      unseen := unseen - {k};
    }
  }
}

=== FILE: oids.dfy ===
/**
 Object and transaction identifiers, and the two ways the collection layer stores
 them: an ordered backing (a strictly ascending key sequence, as a BTree keeps its
 keys) and a hash backing (a plain Dafny map or set). `ToMap` and `Elements` are
 the abstraction functions from the ordered backing to the hash one.
 */
module Oids {

  /** BTrees.family64.maxint, the largest signed 64-bit integer: relstorage's MAX_TID. */
  const MAX_TID: int := 0x7FFF_FFFF_FFFF_FFFF

  /** An object or transaction identifier: a non-negative 64-bit integer. */
  type Oid = x: int | 0 <= x <= MAX_TID

  /** The keys of an ordered set, in the order a TreeSet iterates them. */
  predicate Ascending(ks: seq<Oid>) {
    forall i, j :: 0 <= i < j < |ks| ==> ks[i] < ks[j]
  }

  /** The items of an ordered map, in the order a BTree iterates them. */
  predicate AscendingItems<V(!new)>(items: seq<(Oid, V)>) {
    forall i, j :: 0 <= i < j < |items| ==> items[i].0 < items[j].0
  }

  function Elements(ks: seq<Oid>): set<Oid> {
    set k | k in ks
  }

  function KeySet<V(!new)>(items: seq<(Oid, V)>): set<Oid> {
    set i | 0 <= i < |items| :: items[i].0
  }

  function KeySeq<V(!new)>(items: seq<(Oid, V)>): (ks: seq<Oid>)
    ensures |ks| == |items|
    ensures forall i :: 0 <= i < |items| ==> ks[i] == items[i].0
  {
    seq(|items|, i requires 0 <= i < |items| => items[i].0)
  }

  /** The mapping an item sequence denotes. */
  function ToMap<V(!new)>(items: seq<(Oid, V)>): map<Oid, V> {
    if items == [] then map[] else ToMap(items[1..])[items[0].0 := items[0].1]
  }

  /** `r` is the greatest of `keys`, or 0 when there are none. */
  predicate IsMaxOrZero(keys: set<Oid>, r: Oid) {
    if keys == {} then r == 0 else r in keys && forall k :: k in keys ==> k <= r
  }

  lemma MaxOrZeroUnique(keys: set<Oid>, r1: Oid, r2: Oid)
    requires IsMaxOrZero(keys, r1) && IsMaxOrZero(keys, r2)
    ensures r1 == r2
  {
  }

  lemma AscendingTail(ks: seq<Oid>)
    requires Ascending(ks) && ks != []
    ensures Ascending(ks[1..])
    ensures forall k :: k in ks <==> k == ks[0] || k in ks[1..]
    ensures forall k :: k in ks[1..] ==> ks[0] < k
    ensures forall k :: k in ks ==> ks[0] <= k
  {
  }

  lemma AscendingCons(h: Oid, ks: seq<Oid>)
    requires Ascending(ks)
    requires forall k :: k in ks ==> h < k
    ensures Ascending([h] + ks)
  {
    var r := [h] + ks;
    forall i, j | 0 <= i < j < |r| ensures r[i] < r[j] {
      assert r[j] == ks[j - 1];
      if i > 0 {
        assert r[i] == ks[i - 1];
      } else {
        assert ks[j - 1] in ks;
      }
    }
  }

  lemma AscendingItemsTail<V(!new)>(items: seq<(Oid, V)>)
    requires AscendingItems(items) && items != []
    ensures AscendingItems(items[1..])
    ensures forall p :: p in items <==> p == items[0] || p in items[1..]
    ensures forall p :: p in items[1..] ==> items[0].0 < p.0
    ensures forall p :: p in items ==> items[0].0 <= p.0
  {
  }

  lemma AscendingItemsCons<V(!new)>(h: (Oid, V), items: seq<(Oid, V)>)
    requires AscendingItems(items)
    requires forall p :: p in items ==> h.0 < p.0
    ensures AscendingItems([h] + items)
  {
  }

  /** An ascending sequence is determined by its elements: a BTree and a TreeSet
      have one shape per content. */
  lemma {:induction false} AscendingUnique(a: seq<Oid>, b: seq<Oid>)
    requires Ascending(a) && Ascending(b)
    requires Elements(a) == Elements(b)
    ensures a == b
  {
    if a != [] {
      assert a[0] in Elements(a);
    }
    if b != [] {
      assert b[0] in Elements(b);
    }
    if a != [] && b != [] {
      AscendingTail(a);
      AscendingTail(b);
      assert a[0] in Elements(b) && b[0] in Elements(a);
      assert a[0] == b[0];
      assert Elements(a[1..]) == Elements(b[1..]) by {
        forall k ensures k in Elements(a[1..]) <==> k in Elements(b[1..]) {
          assert k in Elements(a) <==> k in Elements(b);
        }
      }
      AscendingUnique(a[1..], b[1..]);
      assert a == [a[0]] + a[1..] && b == [b[0]] + b[1..];
    }
  }

  lemma KeySeqAscending<V(!new)>(items: seq<(Oid, V)>)
    requires AscendingItems(items)
    ensures Ascending(KeySeq(items))
    ensures Elements(KeySeq(items)) == KeySet(items)
  {
  }

  /** The mapping an ascending item sequence denotes holds exactly its items. */
  lemma {:induction false} ToMapContents<V(!new)>(items: seq<(Oid, V)>)
    requires AscendingItems(items)
    ensures ToMap(items).Keys == KeySet(items)
    ensures forall p :: p in items ==> ToMap(items)[p.0] == p.1
  {
    ToMapKeys(items);
    ToMapValues(items);
  }

  /** The keys of the mapping are the keys of the items, ordered or not. */
  lemma {:induction false} ToMapKeys<V(!new)>(items: seq<(Oid, V)>)
    ensures ToMap(items).Keys == KeySet(items)
  {
    if items != [] {
      var t := items[1..];
      ToMapKeys(t);
      assert KeySet(items) == KeySet(t) + {items[0].0} by {
        forall i | 0 <= i < |t| ensures t[i] == items[i + 1] { }
      }
    }
  }

  /** With ascending keys no item is overwritten by a later one. */
  lemma {:induction false} ToMapValues<V(!new)>(items: seq<(Oid, V)>)
    requires AscendingItems(items)
    ensures forall p :: p in items ==> p.0 in ToMap(items) && ToMap(items)[p.0] == p.1
  {
    if items != [] {
      var t := items[1..];
      AscendingItemsTail(items);
      ToMapValues(t);
      forall p | p in items ensures p.0 in ToMap(items) && ToMap(items)[p.0] == p.1 {
        if p != items[0] {
          assert p in t && items[0].0 < p.0;
        }
      }
    }
  }
}

=== FILE: packed_array.dfy ===
/**
 Storage of an `array.array` with an unsigned integer type code: each element
 occupies `width` bytes (its `itemsize`), least significant byte first. Only the
 value round trip matters to the collection layer, so the byte order is a choice
 of the model, not of the platform.
 */
module PackedArray {
  import opened Bytes

  /** 256 to the power `w`: one more than the largest value `w` bytes hold. */
  function Pow256(w: nat): (r: nat)
    ensures r >= 1
  {
    if w == 0 then 1 else 256 * Pow256(w - 1)
  }

  /** Pow256 grows with the width. */
  lemma {:induction false} Pow256Monotone(v: nat, w: nat)
    requires v <= w
    ensures Pow256(v) <= Pow256(w)
  {
    if v < w {
      Pow256Monotone(v, w - 1);
    }
  }

  lemma Pow256Of8()
    ensures Pow256(8) == 0x1_0000_0000_0000_0000
  {
  }

  /** The `w` bytes one element occupies. */
  function EncodeWord(x: nat, w: nat): (r: Bytes)
    requires x < Pow256(w)
    ensures |r| == w
  {
    if w == 0 then []
    else [x % 256] + EncodeWord(x / 256, w - 1)
  }

  /** The element a run of bytes holds. */
  function DecodeWord(bs: Bytes): (r: nat)
    ensures r < Pow256(|bs|)
  {
    if bs == [] then 0 else bs[0] + 256 * DecodeWord(bs[1..])
  }

  lemma {:induction false} DecodeEncodeWord(x: nat, w: nat)
    requires x < Pow256(w)
    ensures DecodeWord(EncodeWord(x, w)) == x
  {
    if w > 0 {
      var e := EncodeWord(x, w);
      assert e[1..] == EncodeWord(x / 256, w - 1);
      DecodeEncodeWord(x / 256, w - 1);
    }
  }

  predicate Fits(xs: seq<int>, w: nat) {
    forall i :: 0 <= i < |xs| ==> 0 <= xs[i] < Pow256(w)
  }

  /** The buffer of an array built from `xs`. */
  function Pack(xs: seq<int>, w: nat): (r: Bytes)
    requires Fits(xs, w)
  {
    if xs == [] then [] else EncodeWord(xs[0], w) + Pack(xs[1..], w)
  }

  /** The elements a buffer holds, `w` bytes apiece. */
  function Unpack(bs: Bytes, w: nat): seq<int>
    requires w > 0
    decreases |bs|
  {
    if |bs| < w then [] else [DecodeWord(bs[..w])] + Unpack(bs[w..], w)
  }

  /** Reading a packed array back yields the values stored, in order. */
  lemma {:induction false} UnpackPack(xs: seq<int>, w: nat)
    requires w > 0 && Fits(xs, w)
    ensures Unpack(Pack(xs, w), w) == xs
  {
    if xs != [] {
      var e := EncodeWord(xs[0], w);
      var rest := Pack(xs[1..], w);
      assert (e + rest)[..w] == e;
      assert (e + rest)[w..] == rest;
      DecodeEncodeWord(xs[0], w);
      UnpackPack(xs[1..], w);
    }
  }
}

=== FILE: pg8000.dfy ===
/**
 The pg8000 PostgreSQL driver: parsing a `key=value key=value` DSN into the
 keyword arguments of its connection class, the `TRANSACTION ...` statement
 `connect_with_isolation` issues, and when a connection may need a commit or a
 rollback.
 */
module Pg8000 {
  import opened Wrappers
  import opened Python
  import opened DbApi

  // ---------------------------------------------------------------------------
  // Python's str.split(sep) and its inverse, sep.join(parts)

  /** `s.split(sep)` with an explicit one-character separator: empty pieces are
      kept, and there is always at least one piece. */
  function Split(s: string, sep: char): (parts: seq<string>)
    ensures |parts| >= 1
    ensures forall i :: 0 <= i < |parts| ==> sep !in parts[i]
    decreases |s|
  {
    if s == [] then [[]]
    else
      var rest := Split(s[1..], sep);
      if s[0] == sep then [[]] + rest
      else
        var r := [[s[0]] + rest[0]] + rest[1..];
        assert forall i :: 1 <= i < |r| ==> r[i] == rest[i];
        r
  }

  /** `sep.join(parts)`. */
  function Join(parts: seq<string>, sep: char): string
    requires |parts| >= 1
  {
    if |parts| == 1 then parts[0] else parts[0] + [sep] + Join(parts[1..], sep)
  }

  /** Joining the pieces of a split gives back the string. */
  lemma {:induction false} JoinSplit(s: string, sep: char)
    ensures Join(Split(s, sep), sep) == s
    decreases |s|
  {
    if s != [] {
      var rest := Split(s[1..], sep);
      JoinSplit(s[1..], sep);
      if s[0] != sep {
        var parts := Split(s, sep);
        assert parts[0] == [s[0]] + rest[0];
        if |rest| > 1 {
          assert parts[1..] == rest[1..];
        }
      }
    }
  }

  /** A first character other than the separator joins the first piece. */
  lemma SplitCons(c: char, u: string, sep: char)
    requires c != sep
    ensures Split([c] + u, sep) == [[c] + Split(u, sep)[0]] + Split(u, sep)[1..]
  {
    assert ([c] + u)[1..] == u;
  }

  /** Splitting a string with no separator in its first `|p|` characters. */
  lemma {:induction false} SplitPrefix(p: string, t: string, sep: char)
    requires sep !in p
    ensures Split(p + t, sep) == [p + Split(t, sep)[0]] + Split(t, sep)[1..]
    decreases |p|
  {
    var st := Split(t, sep);
    if p != [] {
      assert p[0] in p;
      assert p + t == [p[0]] + (p[1..] + t);
      SplitCons(p[0], p[1..] + t, sep);
      SplitPrefix(p[1..], t, sep);
      assert [p[0]] + (p[1..] + st[0]) == p + st[0];
    } else {
      assert p + t == t && p + st[0] == st[0];
      assert st == [st[0]] + st[1..];
    }
  }

  /** Splitting a join of separator-free pieces gives back the pieces. */
  lemma {:induction false} SplitJoin(parts: seq<string>, sep: char)
    requires |parts| >= 1
    requires forall i :: 0 <= i < |parts| ==> sep !in parts[i]
    ensures Split(Join(parts, sep), sep) == parts
  {
    if |parts| == 1 {
      SplitPrefix(parts[0], [], sep);
      assert parts[0] + [] == parts[0];
    } else {
      var tail := Join(parts[1..], sep);
      SplitJoin(parts[1..], sep);
      assert parts[0] + [sep] + tail == parts[0] + ([sep] + tail);
      SplitPrefix(parts[0], [sep] + tail, sep);
      assert ([sep] + tail)[1..] == tail;
      assert parts[0] + [] == parts[0];
      assert parts == [parts[0]] + parts[1..];
    }
  }

  /** One piece more than there are separators. */
  lemma {:induction false} SplitCount(s: string, sep: char)
    ensures |Split(s, sep)| == multiset(s)[sep] + 1
    decreases |s|
  {
    if s != [] {
      SplitCount(s[1..], sep);
      assert s == [s[0]] + s[1..];
      assert multiset(s) == multiset{s[0]} + multiset(s[1..]);
    }
  }

  // ---------------------------------------------------------------------------
  // Python's str.strip(chars)

  /** How many characters at the start of `s` are in `chars`. */
  function Leading(s: string, chars: set<char>): (n: nat)
    ensures n <= |s|
    ensures forall k :: 0 <= k < n ==> s[k] in chars
    ensures n == |s| || s[n] !in chars
  {
    if s != [] && s[0] in chars then
      var n := 1 + Leading(s[1..], chars);
      assert forall k :: 1 <= k < n ==> s[k] == s[1..][k - 1];
      n
    else 0
  }

  /** How many characters at the end of `s` are in `chars`. */
  function Trailing(s: string, chars: set<char>): (n: nat)
    ensures n <= |s|
    ensures forall k :: |s| - n <= k < |s| ==> s[k] in chars
    ensures n == |s| || s[|s| - n - 1] !in chars
  {
    if s != [] && s[|s| - 1] in chars then
      var front := s[..|s| - 1];
      var n := 1 + Trailing(front, chars);
      assert forall k :: |s| - n <= k < |s| - 1 ==> s[k] == front[k];
      n
    else 0
  }

  /** `s.strip(chars)`: what is left of `s` once the characters of `chars` are
      cut from both ends. */
  function Strip(s: string, chars: set<char>): (r: string)
    ensures Leading(s, chars) + |r| <= |s|
    ensures r == s[Leading(s, chars)..Leading(s, chars) + |r|]
    ensures forall k :: Leading(s, chars) + |r| <= k < |s| ==> s[k] in chars
    ensures r == [] || (r[0] !in chars && r[|r| - 1] !in chars)
  {
    var i := Leading(s, chars);
    var rest := s[i..];
    var r := rest[..|rest| - Trailing(rest, chars)];
    assert forall k :: i + |r| <= k < |s| ==> s[k] == rest[k - i];
    r
  }

  /** Stripping twice is stripping once. */
  lemma StripIdempotent(s: string, chars: set<char>)
    ensures Strip(Strip(s, chars), chars) == Strip(s, chars)
  {
  }

  /** The characters the value of each DSN part is stripped of. */
  const QUOTES: set<char> := {'\'', '"'}

  // ---------------------------------------------------------------------------
  // PG8000Driver.connect

  /** The part holds exactly one '='. */
  predicate OneEquals(part: string) {
    multiset(part)['='] == 1
  }

  /** `key, value = part.split('=')`: a ValueError unless the part holds exactly
      one '='. */
  function SplitAssignment(part: string): (r: Result<(string, string), Exception>)
    ensures r.Success? <==> OneEquals(part)
    ensures r.Failure? ==> r.error == ValueError
    ensures r.Success? ==> part == r.value.0 + "=" + r.value.1
    ensures r.Success? ==> '=' !in r.value.0 && '=' !in r.value.1
  {
    var pieces := Split(part, '=');
    SplitCount(part, '=');
    if |pieces| == 2 then
      JoinSplit(part, '=');
      Success((pieces[0], pieces[1]))
    else Failure(ValueError)
  }

  /** Every part of the DSN split into key and value; the first bad part fails. */
  function SplitAssignments(parts: seq<string>): (r: Result<seq<(string, string)>, Exception>)
    ensures r.Success? <==> forall i :: 0 <= i < |parts| ==> OneEquals(parts[i])
    ensures r.Failure? ==> r.error == ValueError
    ensures r.Success? ==> |r.value| == |parts|
    ensures r.Success? ==> forall i :: 0 <= i < |parts| ==>
      Success(r.value[i]) == SplitAssignment(parts[i])
  {
    if forall i :: 0 <= i < |parts| ==> OneEquals(parts[i]) then
      Success(seq(|parts|, i requires 0 <= i < |parts| => SplitAssignment(parts[i]).value))
    else Failure(ValueError)
  }

  /** The keyword a DSN key is passed as: `dbname` becomes `database`. */
  function Keyword(key: string): string {
    if key == "dbname" then "database" else key
  }

  /** Only `dbname` is renamed, and no key is passed as `dbname`. */
  lemma KeywordRenames(key: string)
    ensures Keyword("dbname") == "database"
    ensures key != "dbname" ==> Keyword(key) == key
    ensures Keyword(key) != "dbname"
  {
  }

  /** The loop body `kwds[key] = value`, over the parts in order. */
  function Assign(kwds: map<string, string>, pairs: seq<(string, string)>): (r: map<string, string>)
    ensures kwds.Keys <= r.Keys
    decreases |pairs|
  {
    if pairs == [] then kwds
    else Assign(kwds[Keyword(pairs[0].0) := Strip(pairs[0].1, QUOTES)], pairs[1..])
  }

  /** `i` is the last pair whose key becomes keyword `k`. */
  predicate LastFor(pairs: seq<(string, string)>, k: string, i: int) {
    && 0 <= i < |pairs|
    && Keyword(pairs[i].0) == k
    && forall j :: i < j < |pairs| ==> Keyword(pairs[j].0) != k
  }

  /** A keyword ends up in the arguments iff it was there already or some part names it. */
  lemma {:induction false} AssignDomain(kwds: map<string, string>, pairs: seq<(string, string)>)
    ensures forall k :: k in Assign(kwds, pairs) <==>
      k in kwds || exists i :: 0 <= i < |pairs| && Keyword(pairs[i].0) == k
    decreases |pairs|
  {
    if pairs != [] {
      var next := kwds[Keyword(pairs[0].0) := Strip(pairs[0].1, QUOTES)];
      var tail := pairs[1..];
      AssignDomain(next, tail);
      assert Assign(kwds, pairs) == Assign(next, tail);
      forall k | k in Assign(kwds, pairs) && k !in kwds
        ensures exists i :: 0 <= i < |pairs| && Keyword(pairs[i].0) == k
      {
        if k != Keyword(pairs[0].0) {
          var i :| 0 <= i < |tail| && Keyword(tail[i].0) == k;
          assert pairs[i + 1] == tail[i];
        }
      }
      forall k | exists i :: 0 <= i < |pairs| && Keyword(pairs[i].0) == k
        ensures k in Assign(kwds, pairs)
      {
        var i :| 0 <= i < |pairs| && Keyword(pairs[i].0) == k;
        if i > 0 {
          assert tail[i - 1] == pairs[i];
        }
      }
    }
  }

  /** The keyword of the last part naming it holds that part's stripped value. */
  lemma {:induction false} AssignLastWins(kwds: map<string, string>, pairs: seq<(string, string)>)
    ensures forall k, i :: LastFor(pairs, k, i) ==>
      k in Assign(kwds, pairs) && Assign(kwds, pairs)[k] == Strip(pairs[i].1, QUOTES)
    decreases |pairs|
  {
    if pairs != [] {
      var next := kwds[Keyword(pairs[0].0) := Strip(pairs[0].1, QUOTES)];
      var tail := pairs[1..];
      AssignLastWins(next, tail);
      AssignUntouched(next, tail);
      assert Assign(kwds, pairs) == Assign(next, tail);
      forall k, i | LastFor(pairs, k, i)
        ensures k in Assign(kwds, pairs) && Assign(kwds, pairs)[k] == Strip(pairs[i].1, QUOTES)
      {
        if i > 0 {
          assert forall j :: i - 1 < j < |tail| ==> tail[j] == pairs[j + 1];
          assert LastFor(tail, k, i - 1);
        } else {
          assert forall j :: 0 <= j < |tail| ==> tail[j] == pairs[j + 1];
        }
      }
    }
  }

  /** A keyword no part names keeps its previous value. */
  lemma {:induction false} AssignUntouched(kwds: map<string, string>, pairs: seq<(string, string)>)
    ensures forall k :: k in kwds && (forall i :: 0 <= i < |pairs| ==> Keyword(pairs[i].0) != k) ==>
      k in Assign(kwds, pairs) && Assign(kwds, pairs)[k] == kwds[k]
    decreases |pairs|
  {
    if pairs != [] {
      var next := kwds[Keyword(pairs[0].0) := Strip(pairs[0].1, QUOTES)];
      var tail := pairs[1..];
      AssignUntouched(next, tail);
      assert Assign(kwds, pairs) == Assign(next, tail);
      forall k | k in kwds && (forall i :: 0 <= i < |pairs| ==> Keyword(pairs[i].0) != k)
        ensures k in Assign(kwds, pairs) && Assign(kwds, pairs)[k] == kwds[k]
      {
        assert Keyword(pairs[0].0) != k;
        assert k in next && next[k] == kwds[k];
        assert forall i :: 0 <= i < |tail| ==> Keyword(tail[i].0) != k by {
          forall i | 0 <= i < |tail| ensures Keyword(tail[i].0) != k {
            assert tail[i] == pairs[i + 1];
          }
        }
        assert Assign(next, tail)[k] == next[k];
      }
    }
  }

  /** The keyword arguments a DSN string becomes. */
  function ParseDsn(dsn: string): (r: Result<map<string, string>, Exception>)
    ensures r.Failure? ==> r.error == ValueError
  {
    match SplitAssignments(Split(dsn, ' '))
    case Failure(e) => Failure(e)
    case Success(pairs) => Success(Assign(map[], pairs))
  }

  /** `connect(*args, **kwargs)`: exactly one positional DSN and no keywords, else
      an AssertionError; then the DSN's keyword arguments. */
  function Connect(args: seq<string>, kwargs: map<string, string>): (r: Result<map<string, string>, Exception>)
    ensures |args| != 1 || kwargs != map[] ==> r == Failure(AssertionError)
    ensures |args| == 1 && kwargs == map[] ==> r == ParseDsn(args[0])
  {
    if |args| != 1 then Failure(AssertionError)
    else if kwargs != map[] then Failure(AssertionError)
    else ParseDsn(args[0])
  }

  /** A DSN parses iff every space-separated part holds exactly one '=';
      otherwise the error is a ValueError. */
  lemma ParseDsnSucceeds(dsn: string)
    ensures ParseDsn(dsn).Success? ==>
      forall i :: 0 <= i < |Split(dsn, ' ')| ==> OneEquals(Split(dsn, ' ')[i])
    ensures (forall i :: 0 <= i < |Split(dsn, ' ')| ==> OneEquals(Split(dsn, ' ')[i])) ==>
      ParseDsn(dsn).Success?
    ensures ParseDsn(dsn).Failure? ==> ParseDsn(dsn).error == ValueError
  {
  }

  /** `dbname` never reaches the connection: it is always passed as `database`. */
  lemma ParseDsnRenamesDbname(dsn: string)
    ensures ParseDsn(dsn).Success? ==> "dbname" !in ParseDsn(dsn).value
  {
    var r := SplitAssignments(Split(dsn, ' '));
    if r.Success? {
      AssignDomain(map[], r.value);
      forall i | 0 <= i < |r.value| ensures Keyword(r.value[i].0) != "dbname" {
        KeywordRenames(r.value[i].0);
      }
    }
  }

  /** Each part of a successful split is its key, '=' and its value. */
  lemma SplitAssignmentsParts(parts: seq<string>, pairs: seq<(string, string)>)
    requires SplitAssignments(parts) == Success(pairs)
    ensures |pairs| == |parts|
    ensures forall i :: 0 <= i < |parts| ==> parts[i] == pairs[i].0 + "=" + pairs[i].1
  {
  }

  /** A DSN whose parts split parses to the assignment of those pairs, each part
      being its key, '=' and its value. */
  lemma ParseDsnPairs(dsn: string, pairs: seq<(string, string)>)
    requires SplitAssignments(Split(dsn, ' ')) == Success(pairs)
    ensures ParseDsn(dsn) == Success(Assign(map[], pairs))
    ensures forall i :: 0 <= i < |pairs| ==> Split(dsn, ' ')[i] == pairs[i].0 + "=" + pairs[i].1
  {
    SplitAssignmentsParts(Split(dsn, ' '), pairs);
  }

  /** The keywords the parsing loop builds from an empty dict (what `ParseDsn`
      returns, by `ParseDsnPairs`): one per distinct (renamed) key. */
  lemma ParseDsnKeywords(pairs: seq<(string, string)>)
    ensures forall k :: k in Assign(map[], pairs) <==> exists i :: 0 <= i < |pairs| && Keyword(pairs[i].0) == k
  {
    AssignDomain(map[], pairs);
  }

  /** Each of those keywords holds the stripped value of the last part with that key. */
  lemma ParseDsnLastWins(pairs: seq<(string, string)>)
    ensures forall k, i :: LastFor(pairs, k, i) ==>
      k in Assign(map[], pairs) && Assign(map[], pairs)[k] == Strip(pairs[i].1, QUOTES)
  {
    AssignLastWins(map[], pairs);
  }

  /** A part written as `key=value` with no other '=' splits into that key and value. */
  lemma SplitAssignmentOf(key: string, value: string)
    requires '=' !in key && '=' !in value
    ensures SplitAssignment(key + "=" + value) == Success((key, value))
  {
    SplitJoin([key, value], '=');
    assert Join([key, value], '=') == key + "=" + value;
  }

  // ---------------------------------------------------------------------------
  // PG8000Driver.connect_with_isolation and the commit/rollback predicates

  /** `'%s' % isolation`: Python renders a missing isolation level as "None". */
  function IsolationText(isolation: Option<string>): string {
    match isolation
    case Some(level) => level
    case None => "None"
  }

  /** Where each piece sits in `head + [sep1] + mid + [sep2] + tail`. */
  lemma Pieces<T>(head: seq<T>, sep1: T, mid: seq<T>, sep2: T, tail: seq<T>)
    ensures var x := head + [sep1] + mid + [sep2] + tail;
      && |x| == |head| + |mid| + |tail| + 2
      && x[..|head|] == head
      && x[|head|] == sep1
      && x[|head| + 1..|head| + 1 + |mid|] == mid
      && x[|head| + 1 + |mid|] == sep2
      && x[|head| + 2 + |mid|..] == tail
  {
    var x := head + [sep1] + mid + [sep2] + tail;
    assert x == head + ([sep1] + mid + [sep2] + tail);
    assert x == (head + [sep1] + mid) + ([sep2] + tail);
  }

  /** The statement both for the current transaction and for the session. */
  function TransactionStmt(isolation: Option<string>, readOnly: bool, deferrable: bool): (r: string)
    ensures |r| == 14 + |IsolationText(isolation)| + (if readOnly then 11 else 0) + (if deferrable then 12 else 0)
    ensures r[..12 + |IsolationText(isolation)|] == "TRANSACTION " + IsolationText(isolation)
    ensures r[12 + |IsolationText(isolation)|] == ' '
    ensures readOnly <==> r[13 + |IsolationText(isolation)|] == ','
    ensures readOnly ==> r[13 + |IsolationText(isolation)|..24 + |IsolationText(isolation)|] == ", READ ONLY"
    ensures r[|r| - (if deferrable then 13 else 1)] == ' '
    ensures deferrable <==> r[|r| - 1] == 'E'
    ensures deferrable ==> r[|r| - 12..] == ", DEFERRABLE"
  {
    var head := "TRANSACTION " + IsolationText(isolation);
    var ro := if readOnly then ", READ ONLY" else "";
    var df := if deferrable then ", DEFERRABLE" else "";
    Pieces(head, ' ', ro, ' ', df);
    head + [' '] + ro + [' '] + df
  }

  /** The flags can be read back off the statement. */
  lemma TransactionStmtInjective(isolation: Option<string>, r1: bool, d1: bool, r2: bool, d2: bool)
    requires TransactionStmt(isolation, r1, d1) == TransactionStmt(isolation, r2, d2)
    ensures r1 == r2 && d1 == d2
  {
  }

  /** The driver-side state of a pg8000 connection that the predicates read:
      the `readonly` attribute relstorage sets, and pg8000's `in_transaction`. */
  datatype Connection = Connection(kwargs: map<string, string>, readonly: bool, inTransaction: bool)

  /** A connection opened by `connect_with_isolation`, with the statements it ran. */
  datatype Opened = Opened(conn: Connection, executed: seq<Statement>)

  function ConnectWithIsolation(dsn: string, isolation: Option<string>, readOnly: bool,
                                deferrable: bool, applicationName: Option<string>): (r: Result<Opened, Exception>)
    ensures r.Failure? <==> ParseDsn(dsn).Failure?
    ensures r.Failure? ==> r.error == ValueError
    ensures r.Success? ==> r.value.conn.kwargs == ParseDsn(dsn).value
    ensures r.Success? ==> r.value.conn.readonly == readOnly && !r.value.conn.inTransaction
    ensures r.Success? ==>
      var stmt := TransactionStmt(isolation, readOnly, deferrable);
      var ex := r.value.executed;
      && |ex| >= 2
      && ex[0] == Statement("SET " + stmt, [])
      && ex[1] == Statement("SET SESSION CHARACTERISTICS AS " + stmt, [])
      && |ex| == (if StrTruthy(applicationName) then 3 else 2)
      && (|ex| == 3 ==>
            ex[2] == Statement("SELECT set_config('application_name', %s, False)", [applicationName.value]))
  {
    match Connect([dsn], map[])
    case Failure(e) => Failure(e)
    case Success(kwargs) =>
      var stmt := TransactionStmt(isolation, readOnly, deferrable);
      var setName :=
        if StrTruthy(applicationName)
        then [Statement("SELECT set_config('application_name', %s, False)", [applicationName.value])]
        else [];
      // conn.commit() ends the transaction the SET statements ran in.
      Success(Opened(
        Connection(kwargs, readOnly, false),
        [Statement("SET " + stmt, []), Statement("SET SESSION CHARACTERISTICS AS " + stmt, [])] + setName))
  }

  /** Always true: even a read-only connection rolls back to see a fresh snapshot. */
  function MayNeedRollback(conn: Connection): (b: bool)
    ensures b
  {
    true
  }

  /** A read-only connection never needs a commit; a writable one does exactly
      while pg8000 reports it in a transaction. */
  function MayNeedCommit(conn: Connection): (b: bool)
    ensures conn.readonly ==> !b
    ensures !conn.readonly ==> (b <==> conn.inTransaction)
  {
    !conn.readonly && conn.inTransaction
  }

  /** A connection opened read-only never needs a commit, whatever transaction
      state pg8000 later reports. */
  lemma ReadOnlyNeverCommits(dsn: string, isolation: Option<string>, deferrable: bool,
                             applicationName: Option<string>, inTransaction: bool)
    requires ConnectWithIsolation(dsn, isolation, true, deferrable, applicationName).Success?
    ensures !MayNeedCommit(ConnectWithIsolation(dsn, isolation, true, deferrable, applicationName)
      .value.conn.(inTransaction := inTransaction))
  {
  }
}

=== FILE: pg_drivers.dfy ===
/**
 Facts that hold of both PostgreSQL drivers' commit and rollback predicates.
 */
module PgDrivers {
  import opened Wrappers
  import Pg8000
  import Psycopg2

  /** No driver asks a read-only connection to commit. */
  lemma ReadOnlyNeverCommits(p: Pg8000.Connection, q: Psycopg2.Connection)
    ensures p.readonly ==> !Pg8000.MayNeedCommit(p)
    ensures q.readonly ==> !Psycopg2.MayNeedCommit(q)
  {
  }

  /** Whenever a driver may need a commit it may also need a rollback, and a
      read-only connection may always need a rollback. */
  lemma CommitImpliesRollback(p: Pg8000.Connection, q: Psycopg2.Connection)
    ensures Pg8000.MayNeedCommit(p) ==> Pg8000.MayNeedRollback(p)
    ensures Psycopg2.MayNeedCommit(q) ==> Psycopg2.MayNeedRollback(q)
    ensures p.readonly ==> Pg8000.MayNeedRollback(p)
    ensures q.readonly ==> Psycopg2.MayNeedRollback(q)
  {
  }

  /** pg8000 asks for a rollback at least as often as psycopg2. */
  lemma Pg8000RollsBackAtLeastAsOften(p: Pg8000.Connection, q: Psycopg2.Connection)
    ensures Psycopg2.MayNeedRollback(q) ==> Pg8000.MayNeedRollback(p)
  {
  }

  /** A connection opened read-only by either driver's `connect_with_isolation`
      never needs a commit, whatever transaction state it later reaches. */
  lemma OpenedReadOnlyNeverCommits(
    dsn: string, pgIsolation: Option<string>, initial: Psycopg2.Connection, isolation: Option<int>,
    deferrable: bool, applicationName: Option<string>,
    inTransaction: bool, status: Psycopg2.TransactionStatus)
    ensures var r := Pg8000.ConnectWithIsolation(dsn, pgIsolation, true, deferrable, applicationName);
      r.Success? ==> !Pg8000.MayNeedCommit(r.value.conn.(inTransaction := inTransaction))
    ensures var r := Psycopg2.ConnectWithIsolation(initial, isolation, true, deferrable, applicationName);
      r.Success? ==> !Psycopg2.MayNeedCommit(r.value.conn.(status := status))
  {
  }
}

=== FILE: psycopg2.dfy ===
/**
 The psycopg2 PostgreSQL driver: when a connection may need a commit or a
 rollback, judged from its transaction status and read-only flag; which session
 settings `connect_with_isolation` applies; and how server-side cursors are sized.
 */
module Psycopg2 {
  import opened Wrappers
  import opened Python
  import opened DbApi

  /** psycopg2's `TRANSACTION_STATUS_*` values, as reported by `conn.info`. */
  datatype TransactionStatus = Idle | Active | InTrans | InError | Unknown

  /** `TS_NEEDS_COMMIT`. */
  const NEEDS_COMMIT: set<TransactionStatus> := {Active, InTrans}

  /** `TS_NOT_NEEDROLLBACK`. */
  const NOT_NEEDROLLBACK: TransactionStatus := Idle

  /** The parts of a psycopg2 connection the predicates and setup read. */
  datatype Connection = Connection(status: TransactionStatus, readonly: bool, autocommit: bool)

  /** A rollback may be needed unless the connection is idle and writable. */
  function MayNeedRollback(conn: Connection): (b: bool)
    ensures !b <==> conn.status == Idle && !conn.readonly
  {
    conn.status != NOT_NEEDROLLBACK || conn.readonly
  }

  /** Never for a read-only connection; otherwise while a statement or a
      transaction is open. */
  function MayNeedCommit(conn: Connection): (b: bool)
    ensures conn.readonly ==> !b
    ensures !conn.readonly ==> (b <==> conn.status == Active || conn.status == InTrans)
  {
    if conn.readonly then false else conn.status in NEEDS_COMMIT
  }

  /** The commit/rollback decision for each status of a writable connection, and
      for a read-only one. */
  lemma DecisionTable(conn: Connection)
    ensures conn.readonly ==> !MayNeedCommit(conn) && MayNeedRollback(conn)
    ensures !conn.readonly ==> (MayNeedCommit(conn) <==> conn.status == Active || conn.status == InTrans)
    ensures !conn.readonly ==> (MayNeedRollback(conn) <==> conn.status != Idle)
    ensures !conn.readonly && conn.status == Idle ==> !MayNeedCommit(conn) && !MayNeedRollback(conn)
    ensures !conn.readonly && conn.status == InError ==> !MayNeedCommit(conn) && MayNeedRollback(conn)
  {
  }

  /** The arguments of `conn.set_session(...)`. */
  datatype SessionSettings = SessionSettings(isolation: Option<int>, readonly: bool, deferrable: bool)

  /** What `connect_with_isolation` did to the connection it opened. */
  datatype Setup = Setup(
    session: Option<SessionSettings>,  // the set_session call, if any
    executed: seq<Statement>,          // statements run on a separate cursor
    committed: bool,                   // whether conn.commit() was called
    conn: Connection)                  // the connection afterwards

  /** `connect_with_isolation` on the connection `initial` the driver just opened. */
  function ConnectWithIsolation(initial: Connection, isolation: Option<int>, readOnly: bool,
                                deferrable: bool, applicationName: Option<string>): (r: Result<Setup, Exception>)
    ensures initial.autocommit <==> r == Failure(AssertionError)
    ensures r.Failure? <==> initial.autocommit
    ensures r.Success? ==>
      (r.value.session.Some? <==> IntTruthy(isolation) || deferrable || readOnly)
    ensures r.Success? && r.value.session.Some? ==>
      r.value.session.value == SessionSettings(isolation, readOnly, deferrable)
    ensures r.Success? ==> (r.value.executed != [] <==> StrTruthy(applicationName))
    ensures r.Success? ==> (r.value.committed <==> StrTruthy(applicationName))
    ensures r.Success? && StrTruthy(applicationName) ==>
      r.value.executed == [Statement("SET SESSION application_name = %s", [applicationName.value])]
    ensures r.Success? && readOnly ==> r.value.conn.readonly
    ensures r.Success? ==>
      r.value.conn.readonly == if r.value.session.Some? then readOnly else initial.readonly
    ensures r.Success? ==> r.value.conn.status == initial.status
    ensures r.Success? ==>
      r.value.conn == if r.value.session.Some? then initial.(readonly := readOnly) else initial
  {
    if initial.autocommit then Failure(AssertionError)
    else
      var session :=
        if IntTruthy(isolation) || deferrable || readOnly
        then Some(SessionSettings(isolation, readOnly, deferrable))
        else None;
      var conn := if session.Some? then initial.(readonly := readOnly) else initial;
      var named := StrTruthy(applicationName);
      var executed :=
        if named then [Statement("SET SESSION application_name = %s", [applicationName.value])] else [];
      Success(Setup(session, executed, named, conn))
  }

  /** A cursor: server-side (named after the connection) or the driver's default. */
  datatype Cursor =
    | ServerSide(connectionId: int, arraysize: nat, itersize: nat)
    | ClientSide

  /** `cursor(conn, server_side)`. */
  function MakeCursor(connectionId: int, serverSide: bool, cursorArraysize: nat): (c: Cursor)
    ensures c.ServerSide? <==> serverSide
    ensures c.ServerSide? ==> c.connectionId == connectionId
    ensures c.ServerSide? ==> c.arraysize == cursorArraysize && c.itersize == cursorArraysize
  {
    if serverSide then ServerSide(connectionId, cursorArraysize, cursorArraysize) else ClientSide
  }
}

=== FILE: python.dfy ===
/** Python truthiness of the optional values the drivers and iterators test. */
module Python {
  import opened Wrappers

  /** An optional int is true unless it is None or 0. */
  predicate IntTruthy(x: Option<int>) {
    x.Some? && x.value != 0
  }

  /** An optional string is true unless it is None or empty. */
  predicate StrTruthy(s: Option<string>) {
    s.Some? && s.value != ""
  }
}

/** What a DB-API cursor is asked to execute. */
module DbApi {

  /** A statement sent on a connection, with its bound parameters. */
  datatype Statement = Statement(sql: string, params: seq<string>)
}

=== FILE: tree_backing.dfy ===
/**
 The ordered backing: BTrees.family64 `II`/`IO` BTrees and `II` TreeSets. A TreeSet
 is modelled as its strictly ascending key sequence and a BTree as its ascending
 item sequence; the module-level functions `difference`, `intersection` and
 `multiunion` of BTrees.family64.II, and `TreeSet.remove`, are merges over those
 sequences.
 */
module TreeBacking {
  import opened Wrappers
  import opened Oids

  /** Keys in either ascending sequence (the union step of `multiunion`). */
  function Union(a: seq<Oid>, b: seq<Oid>): (r: seq<Oid>)
    requires Ascending(a) && Ascending(b)
    ensures Ascending(r)
    ensures forall x :: x in r <==> x in a || x in b
    decreases |a| + |b|
  {
    if a == [] then b
    else if b == [] then a
    else
      AscendingTail(a);
      AscendingTail(b);
      if a[0] < b[0] then
        var r := Union(a[1..], b);
        AscendingCons(a[0], r);
        [a[0]] + r
      else if a[0] == b[0] then
        var r := Union(a[1..], b[1..]);
        AscendingCons(a[0], r);
        [a[0]] + r
      else
        var r := Union(a, b[1..]);
        AscendingCons(b[0], r);
        [b[0]] + r
  }

  /** `II.multiunion(seq)`: every key of every input set, in ascending order. */
  function MultiUnion(ss: seq<seq<Oid>>): (r: seq<Oid>)
    requires forall i :: 0 <= i < |ss| ==> Ascending(ss[i])
    ensures Ascending(r)
    ensures forall x :: x in r <==> exists i :: 0 <= i < |ss| && x in ss[i]
  {
    if ss == [] then []
    else
      var rest := MultiUnion(ss[1..]);
      var r := Union(ss[0], rest);
      assert forall x :: (exists i :: 1 <= i < |ss| && x in ss[i]) ==> x in rest by {
        forall x, i | 1 <= i < |ss| && x in ss[i] ensures x in rest {
          assert ss[1..][i - 1] == ss[i];
        }
      }
      r
  }

  /** `II.intersection(c1, c2)`: the keys present in both, as a TreeSet. */
  function Intersection(a: seq<Oid>, b: seq<Oid>): (r: seq<Oid>)
    requires Ascending(a) && Ascending(b)
    ensures Ascending(r)
    ensures forall x :: x in r <==> x in a && x in b
    decreases |a| + |b|
  {
    if a == [] || b == [] then []
    else
      AscendingTail(a);
      AscendingTail(b);
      if a[0] < b[0] then
        Intersection(a[1..], b)
      else if a[0] == b[0] then
        var r := Intersection(a[1..], b[1..]);
        AscendingCons(a[0], r);
        [a[0]] + r
      else
        Intersection(a, b[1..])
  }

  /** `II.difference(c1, c2)` for a TreeSet `c1`: its keys not in `c2`. */
  function Difference(a: seq<Oid>, b: seq<Oid>): (r: seq<Oid>)
    requires Ascending(a) && Ascending(b)
    ensures Ascending(r)
    ensures forall x :: x in r <==> x in a && x !in b
    decreases |a| + |b|
  {
    if a == [] then []
    else if b == [] then a
    else
      AscendingTail(a);
      AscendingTail(b);
      if a[0] < b[0] then
        var r := Difference(a[1..], b);
        AscendingCons(a[0], r);
        [a[0]] + r
      else if a[0] == b[0] then
        Difference(a[1..], b[1..])
      else
        Difference(a, b[1..])
  }

  /** `II.difference(c1, c2)` for a BTree `c1`: its items whose keys are not in `c2`,
      with `c1`'s values. */
  function DifferenceItems<V(!new)>(a: seq<(Oid, V)>, b: seq<Oid>): (r: seq<(Oid, V)>)
    requires AscendingItems(a) && Ascending(b)
    ensures AscendingItems(r)
    ensures forall p :: p in r <==> p in a && p.0 !in b
    decreases |a| + |b|
  {
    if a == [] then []
    else if b == [] then a
    else
      AscendingItemsTail(a);
      AscendingTail(b);
      if a[0].0 < b[0] then
        var r := DifferenceItems(a[1..], b);
        AscendingItemsCons(a[0], r);
        [a[0]] + r
      else if a[0].0 == b[0] then
        DifferenceItems(a[1..], b[1..])
      else
        DifferenceItems(a, b[1..])
  }

  /** The keys `DifferenceItems` keeps are those of `a` not in `b`. */
  lemma DifferenceItemsKeys<V(!new)>(a: seq<(Oid, V)>, b: seq<Oid>)
    requires AscendingItems(a) && Ascending(b)
    ensures KeySet(DifferenceItems(a, b)) == KeySet(a) - Elements(b)
  {
  }

  /** On the denoted mappings, `DifferenceItems` removes exactly the keys of `b`. */
  lemma DifferenceItemsMap<V(!new)>(a: seq<(Oid, V)>, b: seq<Oid>)
    requires AscendingItems(a) && Ascending(b)
    ensures ToMap(DifferenceItems(a, b)) == ToMap(a) - Elements(b)
  {
    var r := DifferenceItems(a, b);
    ToMapContents(a);
    ToMapContents(r);
    DifferenceItemsKeys(a, b);
    var want := ToMap(a) - Elements(b);
    assert ToMap(r).Keys == want.Keys;
    forall k | k in ToMap(r) ensures ToMap(r)[k] == want[k] {
      var j :| 0 <= j < |r| && r[j].0 == k;
      assert r[j] in r;
      assert r[j] in a;
      assert ToMap(a)[k] == r[j].1;
    }
  }

  /** `TreeSet.remove(v)`: raises KeyError when `v` is absent. */
  function Remove(s: seq<Oid>, v: Oid): (r: Result<seq<Oid>, Exception>)
    requires Ascending(s)
    ensures r.Failure? <==> v !in s
    ensures r.Failure? ==> r.error == KeyError(v)
    ensures r.Success? ==> Ascending(r.value)
    ensures r.Success? ==> forall x :: x in r.value <==> x in s && x != v
  {
    if s == [] then Failure(KeyError(v))
    else
      AscendingTail(s);
      if s[0] > v then Failure(KeyError(v))
      else if s[0] == v then Success(s[1..])
      else
        match Remove(s[1..], v)
        case Failure(e) => Failure(e)
        case Success(rest) =>
          AscendingCons(s[0], rest);
          Success([s[0]] + rest)
  }

  /** `OidSet_discard` on a TreeSet: `remove`, with the KeyError swallowed. */
  function Discard(s: seq<Oid>, v: Oid): (r: seq<Oid>)
    requires Ascending(s)
    ensures Ascending(r)
    ensures forall x :: x in r <==> x in s && x != v
    ensures v !in s ==> r == s
  {
    match Remove(s, v)
    case Success(rest) => rest
    case Failure(_) => s
  }

  /** `OidObjectMap_max_key` on a BTree: 0 when empty, else `maxKey()`, the last key. */
  function MaxKey<V(!new)>(items: seq<(Oid, V)>): (r: Oid)
    requires AscendingItems(items)
    ensures IsMaxOrZero(KeySet(items), r)
  {
    if items == [] then 0
    else
      var last := items[|items| - 1];
      assert last.0 in KeySet(items);
      assert forall k :: k in KeySet(items) ==> k <= last.0 by {
        forall k | k in KeySet(items) ensures k <= last.0 {
          var j :| 0 <= j < |items| && items[j].0 == k;
        }
      }
      last.0
  }
}

=== FILE: wrappers.dfy ===
/** Failure-carrying datatypes, and the Python exceptions the modelled code raises. */
module Wrappers {

  /** Some value, or nothing (Python's `None`). */
  datatype Option<+T> = None | Some(value: T)

  /** A value, or the exception that replaced it. */
  datatype Result<+R, +E> = Success(value: R) | Failure(error: E)

  /** The exceptions that escape from the modelled operations. */
  datatype Exception =
    | KeyError(key: int)
    | ValueError
    | AssertionError
    | IndexError
    | OverflowError
}

/** Raw bytes, as stored by a packed array or returned by a database driver. */
module Bytes {

  type Byte = b: int | 0 <= b < 256

  type Bytes = seq<Byte>
}
